=== FILE: README.md ===
# Testing-lab portfolio core, modelled in Dafny

This project models the pure logic behind the interactive testing labs of a
Next.js portfolio site. There are three API routes:

- **the simulated k6 performance test**: input defaults, the synthetic metric series, summary statistics with percentiles, the Good/Fair/Poor assessment, and the `options` block of the generated k6 script;
- **the simulated security scan**: scan configuration, header analysis, the SSL report, vulnerability checks, and the overall score, risk and recommendations;
- **the API tester**: request options, status/speed/security-header analysis, recommendations, error classification and troubleshooting tips.

It also models the small helpers of three client components: the technology
search filter, the header editor and status colour of the API playground, and
the score colour, risk badge and `safeGet` path reader of the security scanner
page.

Modules follow the program's structure. `Common`, `JsNumbers`, `JsStrings`,
`Json` and `Sorting` give the JavaScript built-ins the code relies on: truthiness,
`Math.round`, `toLowerCase`, `includes`, `trim`, `split`/`join`, property
access and the numeric sort. Then there is one module per route
(`PerformanceTest`, `SecurityScan`, `ApiTest`) and one per component
(`TechSearch`, `ApiPlayground`, `ScannerDisplay`).

Some things are parameters of the model rather than parts of it:

- every `Math.random()` draw and `Math.sin` value;
- the result of `fetch`;
- whether `new URL(...)` accepts a string (`validUrl`);
- the protocol test (`isHttps`);
- JavaScript's string-to-number conversion (`stringNumber`).

Numbers are exact: whole milliseconds, request rates in tenths and error rates
in tenths of a percent. These are exactly what the handlers' rounding produces.

## Model

| member | source | states |
|---|---|---|
| Common.HeaderValue | src/app/api/security-scan/route.js:166-184 | a header counts as present exactly when it is set to a non-empty value, and then reads as that value (the `\|\| null` of each entry) |
| JsNumbers.RoundDivIsRound | src/app/api/run-performance-test/route.js:174-181 | the integer rounded quotient used for every summary figure equals `Math.round` of the exact quotient, halves rounding up |
| JsNumbers.Percentage | src/app/api/security-scan/route.js:194 | a rounded share of present headers is `Math.round(100·p/q)` exactly, lies between 0 and 100, is 0 exactly below half a percent and 100 exactly from 99.5% on |
| JsNumbers.MinMaxBounds | src/app/api/run-performance-test/route.js:176-177 | `Math.min`/`Math.max` of the latencies are latencies of the run and bound every one of them |
| JsNumbers.RoundedMeanWithin | src/app/api/run-performance-test/route.js:175 | the rounded mean latency lies between the smallest and the largest latency |
| JsNumbers.SumBounds | src/app/api/run-performance-test/route.js:174-181 | a sum of values within [lo, hi] lies between n·lo and n·hi |
| JsStrings.LowerIdempotent | src/components/TechSearch.js:38 | lower-casing twice is lower-casing once |
| JsStrings.LowerOfUpper | src/components/TechSearch.js:38 | lower-casing an upper-cased string gives the lower-cased original |
| JsStrings.LowerConcat | src/components/TechSearch.js:38 | lower-casing distributes over concatenation |
| JsStrings.TrimSlice | src/components/APITestingPlayground.js:117-120 | the trimmed text is a substring of the input with no whitespace at either end |
| JsStrings.TrimDropsOnlyWhitespace | src/components/APITestingPlayground.js:117-120 | the trimmed text starts right after the leading whitespace, and everything before and after it is whitespace |
| JsStrings.TrimIdempotent | src/components/APITestingPlayground.js:117-120 | trimming twice is trimming once |
| JsStrings.Split | src/components/APITestingPlayground.js:116 | `split` returns at least one piece, and no piece contains the separator |
| JsStrings.JoinSplit | src/components/APITestingPlayground.js:116-117 | joining the pieces of a split with the same separator gives back the string |
| JsStrings.SplitAtFirst | src/components/APITestingPlayground.js:116-117 | the first piece is the text before the first separator; the other pieces joined with it are the text after |
| JsStrings.SplitAfterPiece | src/components/SecurityScanner.js:140 | splitting `a` + separator + `t`, with no separator in `a`, gives `a` followed by the pieces of `t` |
| Json.Property | src/components/SecurityScanner.js:141 | `current[key]` on an object is its field, exists exactly for its keys, and is undefined on null, booleans and numbers |
| Sorting.Sort | src/app/api/run-performance-test/route.js:165 | the ascending sort is ordered and a permutation of the latencies |
| Sorting.SortedElementsFromInput | src/app/api/run-performance-test/route.js:165-169 | every entry of the sorted copy is one of the latencies |
| PerformanceTest.ParseTestType | src/app/api/run-performance-test/route.js:95-108 | only the three known test names select a shape; any other name falls through every case |
| PerformanceTest.OrDefault | src/app/api/run-performance-test/route.js:27-28 | `parseInt(x) \|\| fallback` keeps a parsed non-zero number and uses the fallback for NaN and 0 |
| PerformanceTest.SampleCount | src/app/api/run-performance-test/route.js:87 | at most 60 data points, and never more than the duration |
| PerformanceTest.Finish | src/app/api/run-performance-test/route.js:139-161 | after jitter, each value in range is only rounded (latency to ms, throughput to 0.1, error rate to 0.1%), one below range becomes its bound and an error rate above 100% becomes 100%; the VU count follows the sine wave for spike tests and is the configured one otherwise |
| PerformanceTest.Series | src/app/api/run-performance-test/route.js:86-162 | a positive duration yields min(duration, 60) samples, a non-positive one none, and every sample keeps the bounds |
| PerformanceTest.StressShaping | src/app/api/run-performance-test/route.js:125-136 | after 70% of a stress test the error rate triples and the latency is scaled by 1 + 2t/d, which then exceeds 2.4; otherwise only the spike wave applies |
| PerformanceTest.StressDegradation | src/app/api/run-performance-test/route.js:97-146 | with random draws in [0, 1), every sample in the last 30% of a stress test is slower than every earlier sample |
| PerformanceTest.RankIndex | src/app/api/run-performance-test/route.js:166-169 | the index is ⌊n·percent/100⌋, i.e. `Math.floor(n * q)`, and lies inside the sorted array |
| PerformanceTest.RankIndexMonotone | src/app/api/run-performance-test/route.js:166-169 | a higher percentile never reads an earlier index |
| PerformanceTest.PercentilesOf | src/app/api/run-performance-test/route.js:165-169 | each percentile is the sorted copy's entry at its nearest-rank index; p50 ≤ p90 ≤ p95 ≤ p99, all between the minimum and maximum latency |
| PerformanceTest.RanksOrdered | src/app/api/run-performance-test/route.js:165-169 | the four nearest-rank readings of the sorted latencies are ordered and bracketed by min and max |
| PerformanceTest.Summarize | src/app/api/run-performance-test/route.js:171-183 | a non-empty series has a summary: min ≤ percentiles ≤ max, min ≤ mean ≤ max, every latency within [min, max] and both min and max attained by some sample, the mean error rate a percentage, and a non-negative total |
| PerformanceTest.SummaryPercentiles | src/app/api/run-performance-test/route.js:163-169 | the summary's percentiles are the nearest ranks of the samples' latencies |
| PerformanceTest.SummaryMeans | src/app/api/run-performance-test/route.js:171-183 | every mean of the summary is `Math.round(sum / dataPoints)` of its series |
| PerformanceTest.RequestTotal | src/app/api/run-performance-test/route.js:174 | the request total is `Math.round(sum(rps)·duration / dataPoints)`, throughput being kept in tenths |
| PerformanceTest.ErrorTotal | src/app/api/run-performance-test/route.js:180 | the error total is `Math.round(sum(errorRate) / 10)`, error rates being kept in tenths of a percent |
| PerformanceTest.SummaryTotals | src/app/api/run-performance-test/route.js:171-183 | the request total is `Math.round(sum(rps)·duration / dataPoints)`, the error total `Math.round(sum(errorRate) / 10)` (error rates in percent), and the peak throughput is one of the samples' and bounds them all |
| PerformanceTest.TotalRequestsNonNegative | src/app/api/run-performance-test/route.js:174 | the total request count is not negative for non-negative throughput and duration |
| PerformanceTest.AssessSummary | src/app/api/run-performance-test/route.js:187-226 | Poor iff latency > 500 ms or errors > 5%; Fair iff latency in (300, 500] and errors ≤ 5%; each of the six advice lines iff its condition; the healthy line, alone, iff no rule fired; the key findings are the mean latency, peak throughput, request total and mean error rate, in that order |
| PerformanceTest.AdviceInRuleOrder | src/app/api/run-performance-test/route.js:191-213 | each advice line appears at most once, in the order the rules are tested |
| PerformanceTest.RatingMonotone | src/app/api/run-performance-test/route.js:193-206 | a slower or more error-prone run never gets a better rating |
| PerformanceTest.AssessmentDeterministic | src/app/api/run-performance-test/route.js:187-214 | rating and advice depend only on mean latency, mean error rate and p95 |
| PerformanceTest.ScriptOptions | src/app/api/run-performance-test/route.js:228-258 | the load test runs flat at the given VUs and duration; stress has three stages of `Math.round(duration/3)` s targeting VUs, 2·VUs and 0; spike has stages of `Math.round(duration·0.1/0.2/0.4/0.2/0.1)` s targeting VUs, 5·VUs, VUs, 3·VUs and 0; other types set no options |
| PerformanceTest.StagedDurationMatches | src/app/api/run-performance-test/route.js:240-256 | the rounded stage durations add up to the requested duration within 1 s (stress) or 2 s (spike) |
| PerformanceTest.SpikePeakIsHighest | src/app/api/run-performance-test/route.js:248-256 | no spike stage targets more users than the spike stage |
| PerformanceTest.RunPerformanceTest | src/app/api/run-performance-test/route.js:4-56 | a missing type or URL is reported first, then an invalid URL; otherwise VUs default to 10 and the duration to 30, and a positive duration gives min(duration, 60) samples, a summary and an assessment; the response is the generated series, its summary, the assessment of that summary and the k6 options, all for the parsed configuration |
| SecurityScan.ScanConfiguration | src/app/api/security-scan/route.js:102-122 | every section is always included; all depths are basic exactly for 'quick' |
| SecurityScan.HeaderNames | src/app/api/security-scan/route.js:164-185 | the basic scan reads 4 headers, the comprehensive scan 9, and the first four are the same |
| SecurityScan.Entries | src/app/api/security-scan/route.js:164-185 | each listed header is paired with its fetched value, or null when unset or empty |
| SecurityScan.HeaderAdviceFor | src/app/api/security-scan/route.js:199-213 | the CSP and HSTS advice appear exactly when those headers are missing; the Permissions-Policy and COEP advice exactly when the scan is comprehensive and they are missing; the lines come in that order |
| SecurityScan.AnalyzeHeaders | src/app/api/security-scan/route.js:152-226 | a failed fetch gives the error object with score 0; otherwise present + missing = listed, the score is `Math.round(present / listed · 100)`, a percentage that is 100 iff none is missing and 0 iff none is present, and the advice follows the missing headers |
| SecurityScan.SslAnalysis | src/app/api/security-scan/route.js:228-293 | the fixed certificate report scores 95, never warns of expiry, and gives two notes when comprehensive and one otherwise |
| SecurityScan.Checks | src/app/api/security-scan/route.js:295-398 | basic scans run 4 checks, comprehensive scans 8 |
| SecurityScan.CoreChecks | src/app/api/security-scan/route.js:298-332 | the four core checks of every scan |
| SecurityScan.AdvancedChecks | src/app/api/security-scan/route.js:363-397 | the four extra checks of a comprehensive scan |
| SecurityScan.FlagsOfCore | src/app/api/security-scan/route.js:298-332 | of the core checks only CSRF can be vulnerable, as its random draw says |
| SecurityScan.FlagsOfAdvanced | src/app/api/security-scan/route.js:363-397 | of the extra checks only authentication, data exposure and misconfiguration can be vulnerable, each as its draw says |
| SecurityScan.CountFlags | src/app/api/security-scan/route.js:295-402 | the number of vulnerabilities is the number of positive random verdicts that the depth consults |
| SecurityScan.VulnerabilityScan | src/app/api/security-scan/route.js:295-413 | 4 or 8 tests; vulnerabilities ≤ tests; the score is `Math.round((tests − vulnerabilities) / tests · 100)`, a percentage, 100 exactly when nothing is vulnerable |
| SecurityScan.Scan | src/app/api/security-scan/route.js:45-66 | headers and vulnerabilities are always scanned, SSL exactly for https targets, the extra checks exactly for 'full', all at the configured depth |
| SecurityScan.HeaderFindings | src/app/api/security-scan/route.js:464-484 | a header score below 50 gives a High finding, 50-79 a Medium one, 80 and up none |
| SecurityScan.SslFindings | src/app/api/security-scan/route.js:486-498 | an SSL score below 70 gives a High finding |
| SecurityScan.VulnerabilityFindings | src/app/api/security-scan/route.js:501-513 | one finding exactly when something is vulnerable, High above two vulnerabilities, Medium otherwise |
| SecurityScan.OverallScore | src/app/api/security-scan/route.js:518 | 85 without sub-scores, otherwise `Math.round` of their mean, which lies between the smallest and largest sub-score |
| SecurityScan.RiskOf | src/app/api/security-scan/route.js:520-523 | High below 60, Medium from 60 to 79, Low from 80 |
| SecurityScan.RiskMonotone | src/app/api/security-scan/route.js:520-523 | a higher score never carries a higher risk |
| SecurityScan.Recommendations | src/app/api/security-scan/route.js:525-542 | the full-audit line iff quick; the automation and penetration-testing lines iff not quick; the posture line iff no findings, worded for the scan type; the "address findings" and training lines iff findings; all in push order, each at most once |
| SecurityScan.Assess | src/app/api/security-scan/route.js:457-549 | the score is `Math.round` of the mean of the present sub-scores (85 when there are none), the risk follows the score, findings come from each section in order, and the recommendations are those of the scan type and of whether there are findings |
| SecurityScan.HeaderFetchFailureRaisesRisk | src/app/api/security-scan/route.js:219-224 | a failed header fetch counts as a 0 score: a High header finding, an overall score of at most 65, never Low risk, and High risk for a plain-http target |
| SecurityScan.ZeroHeaderScoreAssessment | src/app/api/security-scan/route.js:464-523 | a 0 header score with SSL 95 or absent and any percentage vulnerability score yields score ≤ 65 and a High header finding |
| SecurityScan.ScanScoreIsPercentage | src/app/api/security-scan/route.js:68-73 | the score the scan reports is between 0 and 100 |
| SecurityScan.PercentagesAverageToPercentage | src/app/api/security-scan/route.js:518 | the rounded average of percentage sub-scores is a percentage |
| SecurityScan.RunSecurityScan | src/app/api/security-scan/route.js:4-97 | a missing target is reported first, then an invalid URL; the scan type defaults to 'full' only when absent and is echoed as given otherwise, `null` included; the advanced checks run exactly when it is absent or 'full'; SSL exactly for https; the results are the scan of the target and the assessment is that of exactly those results, so its score is a percentage |
| ApiTest.PrepareRequest | src/app/api/test-api/route.js:32-44 | the method is upper-cased; caller headers override the two defaults and both sets are kept; a body is attached exactly for POST/PUT/PATCH with a truthy body, and strings are sent verbatim |
| ApiTest.SendsBodyCaseInsensitive | src/app/api/test-api/route.js:42 | whether a body is sent does not depend on the method's letter case |
| ApiTest.StatusAnalysis | src/app/api/test-api/route.js:146-158 | 2xx success, 3xx redirect, 4xx client error, from 500 server error, below 200 unknown |
| ApiTest.RedMarksFailedRequests | src/app/api/test-api/route.js:131-154 | a status is red exactly when it is one the advice calls a failed request |
| ApiTest.PerformanceAnalysis | src/app/api/test-api/route.js:160-172 | below 200 ms is Excellent, from 2000 ms Critical |
| ApiTest.PerformanceRankCountsThresholds | src/app/api/test-api/route.js:160-172 | the rating counts how many of 200, 500, 1000 and 2000 ms the time reaches |
| ApiTest.PerformanceMonotone | src/app/api/test-api/route.js:160-172 | a slower response never gets a better rating |
| ApiTest.Partition | src/app/api/test-api/route.js:183-192 | present and missing names together number the checked headers, and each list is a subsequence of the checked names, in their order |
| ApiTest.PartitionMembers | src/app/api/test-api/route.js:183-192 | with distinct names, a name is present exactly when its header is set, and missing otherwise |
| ApiTest.AnalyzeSecurity | src/app/api/test-api/route.js:174-199 | each of the five names is present iff its header is set and missing otherwise, both lists keep the table's order, and the score is 20 points per present header |
| ApiTest.AnalyzeResponse | src/app/api/test-api/route.js:117-144 | the slow, failed-request and CSP advice each appear iff their condition holds, and the healthy line, alone, iff none did |
| ApiTest.Advise | src/app/api/test-api/route.js:126-141 | the slow, failed-request and CSP lines each appear iff their test holds, in that order, and the healthy line alone iff none does |
| ApiTest.AdviceInTestOrder | src/app/api/test-api/route.js:126-141 | each advice line appears at most once, in the order the tests are made |
| ApiTest.CspReported | src/app/api/test-api/route.js:174-199 | "CSP" is reported missing exactly when the CSP header is unset, and present otherwise |
| ApiTest.CriticalWithoutSlowAdvice | src/app/api/test-api/route.js:127-170 | a Critical response lacks the slow-response advice exactly at 2000 ms, where the two boundaries differ |
| ApiTest.ClassifyError | src/app/api/test-api/route.js:229-239 | the first matching class, in the order timeout, network, invalid URL, else unknown |
| ApiTest.TroubleshootingTips | src/app/api/test-api/route.js:241-261 | the tips follow the class, except that a message that counts as a network error only by mentioning "network" gets the invalid-URL or generic tips; two or three tips |
| ApiTest.TestApi | src/app/api/test-api/route.js:4-115 | missing method or URL, then an invalid URL, then a thrown fetch are reported with their classified error; a response is analysed, the URL echoed, the request options are those `fetch` was given, the test name is defaulted only when absent and echoed as given otherwise, `null` included, and the timeout passed to `AbortSignal.timeout` likewise defaults to 10000 ms only when absent |
| ApiTest.MissingParametersClassified | src/app/api/test-api/route.js:16-18 | the missing-parameter error is an Unknown Error with the generic tips |
| ApiTest.UnmatchedIsUnknown | src/app/api/test-api/route.js:236-257 | an error matching no test is an Unknown Error with the generic tips |
| ApiTest.InvalidUrlClassified | src/app/api/test-api/route.js:21-25 | the invalid-URL error is an Invalid URL error with the two URL tips |
| ApiTest.InvalidUrlMatchesNoEarlierTest | src/app/api/test-api/route.js:24 | the invalid-URL message mentions neither a timeout nor a network failure |
| TechSearch.Filter | src/components/TechSearch.js:37-41 | exactly the technologies that match both criteria, in their original order |
| TechSearch.EmptyStateIffNoMatch | src/components/TechSearch.js:118 | the empty state shows exactly when no technology matches |
| TechSearch.EmptySearchKeepsAll | src/components/TechSearch.js:37-41 | an empty search with 'All' keeps every technology |
| TechSearch.InitialViewShowsEverything | src/components/TechSearch.js:34-35 | the initial view shows all 24 technologies |
| TechSearch.FilterDependsOnLowerCase | src/components/TechSearch.js:38 | the result depends on the search term only through its lower-cased form |
| TechSearch.SearchIsCaseInsensitive | src/components/TechSearch.js:38 | upper- or lower-casing the term (ASCII upper-casing; lower-casing of ASCII and the Kelvin sign) does not change the result |
| TechSearch.MatchesPrefix | src/components/TechSearch.js:38 | a technology that matches a term also matches every prefix of it |
| TechSearch.ExtendingTermNarrows | src/components/TechSearch.js:37-41 | typing more characters only removes technologies from the list |
| TechSearch.CategoryNarrows | src/components/TechSearch.js:39 | choosing a category shows a subsequence of what 'All' shows |
| ApiPlayground.AddHeader | src/components/APITestingPlayground.js:114-124 | a line without ':' changes nothing; otherwise the trimmed text before the first ':' is set to the trimmed rest, and the input is cleared |
| ApiPlayground.AddHeaderRoundTrip | src/components/APITestingPlayground.js:114-124 | typing `name:value` with both parts trimmed and no ':' in the name sets exactly that header to exactly that value |
| ApiPlayground.RemoveHeader | src/components/APITestingPlayground.js:126-130 | the key is gone and every other header is kept unchanged |
| ApiPlayground.RemoveUndoesAdd | src/components/APITestingPlayground.js:114-130 | removing a header just added gives what removing it from the earlier headers gives |
| ApiPlayground.StatusHue | src/components/APITestingPlayground.js:145-151 | the playground colours a status as the API route's status analysis does, except that 4xx is orange, not red |
| ScannerDisplay.ScoreTone | src/components/SecurityScanner.js:117-120 | 80 and up green, from 60 yellow, from 40 orange, below 40 red |
| ScannerDisplay.ScoreToneMonotone | src/components/SecurityScanner.js:117-120 | a higher score never gets a worse colour |
| ScannerDisplay.ScoreColor | src/components/SecurityScanner.js:115-121 | gray exactly for an absent or falsy non-zero score; 0 is red; other values are coloured by their numeric value, red when it is NaN |
| ScannerDisplay.ScoreColorMonotone | src/components/SecurityScanner.js:115-121 | of two numeric scores, the higher never gets a worse colour |
| ScannerDisplay.RiskColor | src/components/SecurityScanner.js:123-132 | low, medium, high and critical (any letter case) get green, yellow, orange and red; an absent or unknown label gets gray |
| ScannerDisplay.RiskColorIgnoresCase | src/components/SecurityScanner.js:125 | the badge colour ignores the letter case of the label (ASCII upper-casing; lower-casing of ASCII and the Kelvin sign) |
| ScannerDisplay.RiskColorOfLevel | src/components/SecurityScanner.js:123-132 | each risk level the scan reports has its own non-gray badge, ordered as the levels are |
| ScannerDisplay.ScoreAndRiskAgree | src/components/SecurityScanner.js:115-132 | a score's colour equals its risk badge's colour exactly when the score is at least 40 |
| ScannerDisplay.Step | src/components/SecurityScanner.js:141 | one step takes the property when the current value is truthy and has the key, and the default otherwise |
| ScannerDisplay.WalkResolved | src/components/SecurityScanner.js:139-142 | when the path resolves, the fold returns the value at its end, whatever the default |
| ScannerDisplay.SafeGetResolved | src/components/SecurityScanner.js:139-142 | when the path resolves, `safeGet` returns the value at its end |
| ScannerDisplay.NullLeafIsKept | src/components/SecurityScanner.js:141 | a present null leaf is returned as null, not replaced by the default |
| ScannerDisplay.SingleKeyLookup | src/components/SecurityScanner.js:140-141 | on an object, a path without dots is a plain lookup with the default for a missing key |
| ScannerDisplay.WalkFromFalsyDefault | src/components/SecurityScanner.js:141 | once a falsy default has been substituted, it stays the result |
| ScannerDisplay.WalkDefaultWithoutProperties | src/components/SecurityScanner.js:141 | a default without any of the remaining keys stays the result |
| ScannerDisplay.DefaultLeaksIntoPath | src/components/SecurityScanner.js:139-142 | `safeGet({}, 'a.length', 'unknown')` is 7, although the path does not resolve |
| ScannerDisplay.SafeGetStrict | src/components/SecurityScanner.js:139-142 | the value at the path when it resolves, the default otherwise |
| ScannerDisplay.WalkAgreesWithStrict | src/components/SecurityScanner.js:139-142 | with a falsy default, or one that has none of the keys, the fold is the intended lookup |
| ScannerDisplay.SingleKeyAgrees | src/components/SecurityScanner.js:356-357 | a one-key path gives the intended lookup whatever the default |
| ScannerDisplay.HeadlineReadsAgree | src/components/SecurityScanner.js:331-369 | every read of the results headline gives the intended lookup |
| ScannerDisplay.LaterKeysAgree | src/components/SecurityScanner.js:139-142 | only the keys after the first can reach a substituted default, so a falsy default, or one lacking all of them, gives the intended lookup |
| ScannerDisplay.DetailReadsAgree | src/components/SecurityScanner.js:399-487 | an empty-object, numeric or string default before plain-word keys gives the intended lookup |

## Left out

- Floating point: every quantity is exact. Rounding is modelled at the places the code calls `Math.round`. NaN, the infinities and binary fractions are not modelled. An empty or negative-duration series has no summary (`None`) instead of the NaN/-Infinity summary the code would build, and that summary is not assessed.
- Randomness and trigonometry: `Math.random()` and `Math.sin` values are inputs. The base draw is one real; each sample gets one `SampleOracle`; each random vulnerability verdict is one boolean.
- Clocks and timers: `Date.now()`, timestamps, `actualDuration`, `scanDuration` and the artificial `setTimeout` delay are not modelled.
- The network: `fetch` is an input. For the API tester it is a response with its measured time, or a thrown error. For the header scan it is the fetched header map, or an error message.
- `request.json()` parse failures are not modelled.
- `new URL(...)` is the parameter `validUrl`. The protocol check for SSL analysis is the parameter `isHttps`.
- Response parsing in the API tester is not modelled: reading the body, `JSON.parse`, content-type sniffing, the `Blob` size, and `getDataValidation` (test-api/route.js:201-227).
- JSON serialisation: `JSON.stringify` of a request body is kept as the structured value (`Serialized`), not as text.
- The k6 script: only its `options` block is modelled. The script text and the target URL in it are not.
- The advanced and compliance checks of a full scan are not modelled: `performAdvancedSecurityChecks` and `performComplianceCheck` only produce random figures that nothing downstream reads. The model records whether they ran.
- `getScanTypeDescription` and the fixed descriptive texts of each check (descriptions, OWASP categories, advice wording) are not modelled. Only the verdicts and recommendation kinds are.
- Letter case: `toLowerCase` maps ASCII letters and the Kelvin sign, the only non-ASCII character that lowers into ASCII. `toUpperCase` maps ASCII letters. Other Unicode case mappings are not modelled.
- Property access: `Json.Property` covers own object fields, and the `length` and canonical index keys of strings and arrays. Inherited prototype properties (`toString`, `constructor`, …) are not modelled.
- Header map order: headers are a map, so the insertion order the UI would list them in is not modelled.
- ScannerDisplay.RiskColor: takes an optional string. A non-string truthy risk (on which `toLowerCase` would throw) is not modelled.
- ScannerDisplay.ScoreColor: converts strings to numbers through the `stringNumber` parameter rather than JavaScript's numeric-string grammar. Arrays and objects are treated as NaN, so a one-element array such as `[90]`, which JavaScript compares as 90, is coloured red here.
- RunPerformanceTest: `testType` and `targetUrl` are strings or absent. A non-string value (which the `switch` and `new URL` would handle by coercion or rejection) is not modelled. A `null` value is treated like an absent one, as the falsy check does.
- RunSecurityScan: `targetUrl` is a string or absent. A non-string target (which `new URL` would coerce or reject) is not modelled. A `null` target is treated like an absent one, as the falsy check does.
- TestApi: `method` and `url` are strings or absent. A non-string method, on which `toUpperCase` would throw a TypeError with an engine-specific message, is not modelled. A `null` method or URL is treated like an absent one, as the falsy check does.
- ApiTest: `error.name` is kept as given, and only "AbortError" is distinguished. `AbortSignal.timeout` is not modelled beyond the stored timeout value.
- TechSearch: the category pills (`Categories`) and the rendering are not modelled. The filter takes the chosen category as a plain string.
- React state, rendering and event handling in the three components are not modelled. The helpers are modelled as pure functions of their inputs, and `addHeader` returns the new headers together with the new input line.
- The Playwright route (`/api/run-test`) and the remaining pages and components are not part of this model.
- Where the written description of the system and the code differ, the model follows the code. Examples: a truthy non-zero `duration` of any sign is kept, `scanType` defaults to 'full' only when absent, and a failed header fetch still contributes a 0 score to the assessment.

## Findings

| source | as written | input that shows it | evidently intended | confidence | as-written member | corrected member |
|---|---|---|---|---|---|---|
| src/components/SecurityScanner.js:139-142 | when a step does not resolve, the default replaces the current value, and the remaining keys are then looked up on the default itself | `safeGet({}, 'a.length', 'unknown')` returns 7, the length of 'unknown', instead of 'unknown' | return the default whenever the path does not resolve | medium, not executed | ScannerDisplay.DefaultLeaksIntoPath | ScannerDisplay.SafeGetStrict |

The calls the page makes today are not affected, because each falls into a
case where both readings are proved to agree. A falsy or omitted default
(for example SecurityScanner.js:350, :363, :394, :435) is covered by
`ScannerDisplay.WalkAgreesWithStrict`. A path of one key (:356, :549, :573,
:640) is covered by `ScannerDisplay.SingleKeyAgrees`. The remaining calls put
a truthy default before keys that are plain words. These are the empty
object at :399, :412 and :487, the number 95 at :445, 'A' at :442,
'Unknown' at :453, and 'unknown' at :331, :383, :431, :475 and :615. None of
those defaults has such a key as a property, so
`ScannerDisplay.WalkDefaultWithoutProperties` keeps the default, and
`ScannerDisplay.DetailReadsAgree` (through `ScannerDisplay.LaterKeysAgree`)
proves the agreement.

=== FILE: common.dfy ===
/** Option and Result, shared by every module of the model. */
module Common {

  /**
   * A value that may be absent: JavaScript's `undefined`. A required field the
   * source tests for truthiness treats `null` the same way, so it is `None`
   * there as well.
   */
  datatype Option<+T> = None | Some(value: T) {
    function GetOr(default: T): T {
      match this
      case Some(v) => v
      case None => default
    }
  }

  /** The outcome of a request handler: a payload, or the error its `catch` block reports. */
  datatype Result<+T, +E> = Ok(value: T) | Err(error: E)

  /** A string field of a request is missing when it is absent or empty (falsy). */
  predicate Missing(field: Option<string>) {
    field.None? || field.value == ""
  }

  /**
   * The truthy value of a header: `headers.get(name)` or `headers[name]`,
   * where an absent or empty header counts as missing.
   */
  function HeaderValue(headers: map<string, string>, name: string): (v: Option<string>)
    ensures v.Some? <==> name in headers && headers[name] != ""
    ensures v.Some? ==> v.value == headers[name]
  {
    if name in headers && headers[name] != "" then Some(headers[name]) else None
  }

  /** Number of `true` entries in a sequence of flags. */
  function CountTrue(bs: seq<bool>): (n: nat)
    ensures n <= |bs|
    ensures n == 0 <==> forall i :: 0 <= i < |bs| ==> !bs[i]
    ensures n == |bs| <==> forall i :: 0 <= i < |bs| ==> bs[i]
  {
    if |bs| == 0 then 0
    else (if bs[0] then 1 else 0) + CountTrue(bs[1..])
  }

  lemma {:induction false} CountTrueConcat(a: seq<bool>, b: seq<bool>)
    ensures CountTrue(a + b) == CountTrue(a) + CountTrue(b)
  {
    if |a| > 0 {
      assert (a + b)[0] == a[0] && (a + b)[1..] == a[1..] + b;
      CountTrueConcat(a[1..], b);
    } else {
      assert a + b == b;
    }
  }

  /** `a` is `b` with some elements removed, the rest kept in order. */
  predicate IsSubsequence<T(==)>(a: seq<T>, b: seq<T>)
    decreases |b|
  {
    if |a| == 0 then true
    else if |b| == 0 then false
    else (a[0] == b[0] && IsSubsequence(a[1..], b[1..])) || IsSubsequence(a, b[1..])
  }

  /** A subsequence of a list stays one when an element is put in front of the list. */
  lemma SubsequenceOfTail<T>(a: seq<T>, b: seq<T>, x: T)
    requires IsSubsequence(a, b)
    ensures IsSubsequence(a, [x] + b)
  {
    assert ([x] + b)[1..] == b;
  }

  function B2I(b: bool): nat {
    if b then 1 else 0
  }

  lemma CountFour(a: bool, b: bool, c: bool, d: bool)
    ensures CountTrue([a, b, c, d]) == B2I(a) + B2I(b) + B2I(c) + B2I(d)
  {
    var bs := [a, b, c, d];
    assert bs[3..][1..] == [];
    assert CountTrue(bs[3..]) == B2I(d);
    assert bs[2..][1..] == bs[3..];
    assert CountTrue(bs[2..]) == B2I(c) + B2I(d);
    assert bs[1..][1..] == bs[2..];
    assert CountTrue(bs[1..]) == B2I(b) + B2I(c) + B2I(d);
  }
}

=== FILE: jsnumbers.dfy ===
/**
 * JavaScript number helpers, stated over exact integers and reals.
 *
 * `Math.round(x)` is `floor(x + 0.5)` (halves round up, also for negative x).
 * Every rounded ratio in the handlers has the form `Math.round(p / q)` with
 * integer p and positive integer q; `RoundDiv` computes it with integer
 * division only, and `RoundDivIsRound` connects the two.
 */
module JsNumbers {

  /** `Math.round` on an exact real. */
  function Round(x: real): int {
    (x + 0.5).Floor
  }

  /** `Math.round(p / q)` for a positive denominator, in integer arithmetic. */
  function RoundDiv(p: int, q: int): int
    requires q > 0
  {
    (2 * p + q) / (2 * q)
  }

  function Max(a: real, b: real): real {
    if a >= b then a else b
  }

  function Min(a: real, b: real): real {
    if a <= b then a else b
  }

  /** `Math.max(lo, Math.min(hi, x))`. */
  function Clamp(lo: real, hi: real, x: real): (r: real)
    requires lo <= hi
    ensures lo <= r <= hi
    ensures lo <= x <= hi ==> r == x
  {
    Max(lo, Min(hi, x))
  }

  lemma RoundMonotone(x: real, y: real)
    requires x <= y
    ensures Round(x) <= Round(y)
  {
  }

  lemma RoundOfInt(n: int)
    ensures Round(n as real) == n
  {
  }

  /** `Round` is within half a unit of its argument. */
  lemma RoundNear(x: real)
    ensures x - 0.5 < Round(x) as real <= x + 0.5
  {
  }

  lemma MulMonotone(c: int, a: int, b: int)
    requires c >= 0 && a <= b
    ensures c * a <= c * b
  {
    assert c * b - c * a == c * (b - a);
  }

  /** Integer division by a positive divisor reaches k as soon as the dividend reaches d*k. */
  lemma DivAtLeast(a: int, d: int, k: int)
    requires d > 0 && d * k <= a
    ensures k <= a / d
  {
    var r := a / d;
    assert a == d * r + a % d;
    if r < k {
      MulMonotone(d, r + 1, k);
      assert false;
    }
  }

  /** Integer division by a positive divisor stays below k while the dividend is below d*k. */
  lemma DivBelow(a: int, d: int, k: int)
    requires d > 0 && a < d * k
    ensures a / d < k
  {
    var r := a / d;
    assert a == d * r + a % d;
    if r >= k {
      MulMonotone(d, k, r);
      assert false;
    }
  }

  /** The exact quotient lies in [k, k+1) when d*k <= a < d*(k+1). */
  lemma RealBracket(a: int, d: int, k: int)
    requires d > 0
    requires d * k <= a < d * (k + 1)
    ensures k as real <= a as real / d as real < (k + 1) as real
  {
    var x := a as real / d as real;
    var dr := d as real;
    assert x * dr == a as real;
    assert (k as real) * dr <= x * dr;
    assert x * dr < ((k + 1) as real) * dr;
  }

  /** The integer form computes exactly `Math.round(p / q)` on the exact quotient. */
  lemma RoundDivIsRound(p: int, q: int)
    requires q > 0
    ensures RoundDiv(p, q) == Round(p as real / q as real)
  {
    var a := 2 * p + q;
    var d := 2 * q;
    var r := a / d;
    assert a == d * r + a % d;
    RealBracket(a, d, r);
    var x := p as real / q as real;
    assert x * (q as real) == p as real;
    assert a as real == (2.0 * x + 1.0) * (q as real);
    var y := x + 0.5;
    assert y * (d as real) == a as real;
    assert a as real / d as real == y;
  }

  /** The rounded ratio is within half a unit of p/q: 2q·r <= 2p + q < 2q·r + 2q. */
  lemma RoundDivNear(p: int, q: int)
    requires q > 0
    ensures 2 * q * RoundDiv(p, q) <= 2 * p + q < 2 * q * RoundDiv(p, q) + 2 * q
  {
    var a := 2 * p + q;
    var d := 2 * q;
    assert a == d * (a / d) + a % d;
  }

  /** Rounding a ratio that lies between two integers stays between them. */
  lemma RoundDivBetween(p: int, q: int, lo: int, hi: int)
    requires q > 0
    requires q * lo <= p <= q * hi
    ensures lo <= RoundDiv(p, q) <= hi
  {
    DivAtLeast(2 * p + q, 2 * q, lo);
    DivBelow(2 * p + q, 2 * q, hi + 1);
  }

  /** `Math.round(p / q * 100)` as a percentage, for 0 <= p <= q. */
  function Percentage(p: int, q: int): (r: int)
    requires 0 <= p <= q && q > 0
    ensures 0 <= r <= 100
    ensures r == 0 <==> 200 * p < q
    ensures r == 100 <==> 200 * p >= 199 * q
    ensures r == Round((100 * p) as real / q as real)
  {
    PercentageEdges(p, q);
    RoundDivIsRound(100 * p, q);
    RoundDiv(100 * p, q)
  }

  lemma PercentageEdges(p: int, q: int)
    requires 0 <= p <= q && q > 0
    ensures 0 <= RoundDiv(100 * p, q) <= 100
    ensures RoundDiv(100 * p, q) == 0 <==> 200 * p < q
    ensures RoundDiv(100 * p, q) == 100 <==> 200 * p >= 199 * q
  {
    RoundDivBetween(100 * p, q, 0, 100);
    if 200 * p < q {
      DivBelow(200 * p + q, 2 * q, 1);
    } else {
      DivAtLeast(200 * p + q, 2 * q, 1);
    }
    if 200 * p >= 199 * q {
      DivAtLeast(200 * p + q, 2 * q, 100);
    } else {
      DivBelow(200 * p + q, 2 * q, 100);
    }
  }

  // ---------------------------------------------------------------------------
  // Aggregates over integer sequences (Array.prototype.reduce, Math.min/max)

  function Sum(xs: seq<int>): int {
    if |xs| == 0 then 0 else Sum(xs[..|xs| - 1]) + xs[|xs| - 1]
  }

  lemma SumTwo(a: int, b: int)
    ensures Sum([a, b]) == a + b
  {
    assert [a, b][..1] == [a];
    assert [a][..0] == [];
    assert Sum([a]) == Sum([]) + a;
    assert Sum([a, b]) == Sum([a]) + b;
  }

  lemma SumThree(a: int, b: int, c: int)
    ensures Sum([a, b, c]) == a + b + c
  {
    assert [a, b, c][..2] == [a, b];
    SumTwo(a, b);
  }

  function MinOf(xs: seq<int>): int
    requires |xs| > 0
  {
    if |xs| == 1 then xs[0]
    else var m := MinOf(xs[..|xs| - 1]); if xs[|xs| - 1] < m then xs[|xs| - 1] else m
  }

  function MaxOf(xs: seq<int>): int
    requires |xs| > 0
  {
    if |xs| == 1 then xs[0]
    else var m := MaxOf(xs[..|xs| - 1]); if xs[|xs| - 1] > m then xs[|xs| - 1] else m
  }

  /** `Math.min(...xs)` is an element of `xs` and no element is below it; dually for `Math.max`. */
  lemma {:induction false} MinMaxBounds(xs: seq<int>)
    requires |xs| > 0
    ensures MinOf(xs) in xs && MaxOf(xs) in xs
    ensures forall i :: 0 <= i < |xs| ==> MinOf(xs) <= xs[i] <= MaxOf(xs)
  {
    if |xs| > 1 {
      var init := xs[..|xs| - 1];
      MinMaxBounds(init);
      assert forall i :: 0 <= i < |init| ==> xs[i] == init[i];
    }
  }

  /** A sum of n values lies between n times the minimum and n times the maximum. */
  lemma {:induction false} SumBounds(xs: seq<int>, lo: int, hi: int)
    requires forall i :: 0 <= i < |xs| ==> lo <= xs[i] <= hi
    ensures |xs| * lo <= Sum(xs) <= |xs| * hi
  {
    if |xs| > 0 {
      var init := xs[..|xs| - 1];
      var n := |init|;
      assert forall i :: 0 <= i < n ==> init[i] == xs[i];
      SumBounds(init, lo, hi);
      assert Sum(xs) == Sum(init) + xs[n];
      assert |xs| * lo == n * lo + lo;
      assert |xs| * hi == n * hi + hi;
    }
  }

  lemma {:induction false} SumNonNegative(xs: seq<int>)
    requires forall i :: 0 <= i < |xs| ==> xs[i] >= 0
    ensures Sum(xs) >= 0
  {
    if |xs| > 0 {
      SumNonNegative(xs[..|xs| - 1]);
    }
  }

  /** `Math.round(xs.reduce(+) / xs.length)`. */
  function RoundedMean(xs: seq<int>): (m: int)
    requires |xs| > 0
    ensures m == Round(Sum(xs) as real / |xs| as real)
  {
    RoundDivIsRound(Sum(xs), |xs|);
    RoundDiv(Sum(xs), |xs|)
  }

  /** The rounded mean of integers lies between their minimum and their maximum. */
  lemma RoundedMeanWithin(xs: seq<int>)
    requires |xs| > 0
    ensures MinOf(xs) <= RoundedMean(xs) <= MaxOf(xs)
  {
    MinMaxBounds(xs);
    SumBounds(xs, MinOf(xs), MaxOf(xs));
    RoundDivBetween(Sum(xs), |xs|, MinOf(xs), MaxOf(xs));
  }
}

=== FILE: json.dfy ===
/**
 * JSON-like values as the handlers and components see them after parsing,
 * with JavaScript truthiness and property lookup.
 */
module Json {
  import opened Common

  /** A JSON value. Numbers are exact; NaN and the infinities are not represented. */
  datatype Value =
    | Null
    | Bool(b: bool)
    | Num(n: real)
    | Str(s: string)
    | Arr(items: seq<Value>)
    | Obj(fields: map<string, Value>)

  /** JavaScript truthiness: null, false, 0 and "" are falsy; arrays and objects are truthy. */
  predicate Truthy(v: Value) {
    match v
    case Null => false
    case Bool(b) => b
    case Num(n) => n != 0.0
    case Str(s) => s != ""
    case Arr(_) => true
    case Obj(_) => true
  }

  predicate IsDigit(c: char) {
    '0' <= c <= '9'
  }

  /** The decimal value of a string of digits. */
  function DigitsValue(s: string): nat
    requires forall k :: 0 <= k < |s| ==> IsDigit(s[k])
  {
    if |s| == 0 then 0
    else assert IsDigit(s[|s| - 1]); 10 * DigitsValue(s[..|s| - 1]) + (s[|s| - 1] as int - '0' as int)
  }

  /** The array index a property key denotes: a canonical decimal numeral ("0", "17", not "017"). */
  function ArrayIndex(key: string): (r: Option<nat>)
    ensures r.Some? ==> |key| > 0 && forall k :: 0 <= k < |key| ==> IsDigit(key[k])
  {
    if |key| > 0 && (forall k :: 0 <= k < |key| ==> IsDigit(key[k])) && (key[0] != '0' || |key| == 1)
    then Some(DigitsValue(key))
    else None
  }

  /**
   * `v[key]`, with `None` for `undefined`: own properties of objects, the
   * elements and `length` of arrays, the characters and `length` of strings.
   * Properties inherited from prototypes are not represented.
   */
  function Property(v: Value, key: string): (r: Option<Value>)
    ensures v.Obj? ==> (r.Some? <==> key in v.fields)
    ensures v.Obj? && key in v.fields ==> r == Some(v.fields[key])
    ensures v.Null? || v.Bool? || v.Num? ==> r.None?
  {
    match v
    case Obj(fields) => if key in fields then Some(fields[key]) else None
    case Arr(items) =>
      if key == "length" then Some(Num(|items| as real))
      else (match ArrayIndex(key)
            case Some(i) => if i < |items| then Some(items[i]) else None
            case None => None)
    case Str(s) =>
      if key == "length" then Some(Num(|s| as real))
      else (match ArrayIndex(key)
            case Some(i) => if i < |s| then Some(Str([s[i]])) else None
            case None => None)
    case _ => None
  }
}

=== FILE: jsstrings.dfy ===
/**
 * The JavaScript string operations the handlers and components rely on:
 * `toLowerCase`, `toUpperCase`, `includes`, `trim`, `split` and `join`.
 */
module JsStrings {

  // ---------------------------------------------------------------------------
  // Case mapping

  /**
   * `toLowerCase` on one character, restricted to the characters whose lower
   * case is an ASCII letter: 'A'..'Z', and the Kelvin sign U+212A, which
   * lower-cases to 'k'. Every other character either is left alone by
   * `toLowerCase` or is mapped to non-ASCII text.
   */
  function LowerChar(c: char): char {
    if 'A' <= c <= 'Z' then (c as int + 32) as char
    else if c == '\U{212A}' then 'k'
    else c
  }

  function Lower(s: string): (r: string)
    ensures |r| == |s|
    ensures forall i :: 0 <= i < |s| ==> r[i] == LowerChar(s[i])
  {
    if |s| == 0 then "" else [LowerChar(s[0])] + Lower(s[1..])
  }

  /** `toUpperCase` on ASCII letters. */
  function UpperChar(c: char): char {
    if 'a' <= c <= 'z' then (c as int - 32) as char else c
  }

  function Upper(s: string): (r: string)
    ensures |r| == |s|
    ensures forall i :: 0 <= i < |s| ==> r[i] == UpperChar(s[i])
  {
    if |s| == 0 then "" else [UpperChar(s[0])] + Upper(s[1..])
  }

  /** Lower-casing is idempotent. */
  lemma LowerIdempotent(s: string)
    ensures Lower(Lower(s)) == Lower(s)
  {
  }

  /** Lower-casing forgets any earlier upper-casing. */
  lemma LowerOfUpper(s: string)
    ensures Lower(Upper(s)) == Lower(s)
  {
    assert forall i :: 0 <= i < |s| ==> LowerChar(UpperChar(s[i])) == LowerChar(s[i]);
  }

  lemma LowerConcat(a: string, b: string)
    ensures Lower(a + b) == Lower(a) + Lower(b)
  {
  }

  // ---------------------------------------------------------------------------
  // String.prototype.includes

  predicate StartsWith(s: string, prefix: string) {
    |prefix| <= |s| && s[..|prefix|] == prefix
  }

  /** `sub` occurs in `s` starting at offset `i`. */
  predicate OccursAt(s: string, sub: string, i: int) {
    0 <= i <= |s| - |sub| && s[i..i + |sub|] == sub
  }

  /** `s.includes(sub)`: `sub` occurs at some offset of `s`. */
  predicate Contains(s: string, sub: string) {
    exists i :: 0 <= i <= |s| - |sub| && OccursAt(s, sub, i)
  }

  /** Every string includes the empty string. */
  lemma ContainsEmpty(s: string)
    ensures Contains(s, "")
  {
    assert OccursAt(s, "", 0);
  }

  /** A string that includes `p + q` includes `p`. */
  lemma ContainsPrefixOf(s: string, p: string, q: string)
    requires Contains(s, p + q)
    ensures Contains(s, p)
  {
    var i :| 0 <= i <= |s| - |p + q| && OccursAt(s, p + q, i);
    assert s[i..i + |p|] == (p + q)[..|p|] == p;
    assert OccursAt(s, p, i);
  }

  /** Every character of an included string is a character of the including one. */
  lemma ContainsChars(s: string, sub: string, c: char)
    ensures Contains(s, sub) && c in sub ==> c in s
  {
    if !(Contains(s, sub) && c in sub) {
      return;
    }
    var i :| 0 <= i <= |s| - |sub| && OccursAt(s, sub, i);
    var k :| 0 <= k < |sub| && sub[k] == c;
    assert s[i..i + |sub|][k] == s[i + k];
  }

  /**
   * An occurrence of `sub` in `x + [c] + y` lies within `x`, within `y`, or
   * covers the middle character `c`.
   */
  lemma ContainsAcross(x: string, c: char, y: string, sub: string)
    ensures Contains(x + [c] + y, sub) ==> Contains(x, sub) || Contains(y, sub) || c in sub
  {
    var s := x + [c] + y;
    if !Contains(s, sub) {
      return;
    }
    var i :| 0 <= i <= |s| - |sub| && OccursAt(s, sub, i);
    if i + |sub| <= |x| {
      assert x[i..i + |sub|] == s[i..i + |sub|];
      assert OccursAt(x, sub, i);
    } else if i > |x| {
      var j := i - |x| - 1;
      assert y[j..j + |sub|] == s[i..i + |sub|];
      assert OccursAt(y, sub, j);
    } else {
      assert s[i..i + |sub|][|x| - i] == s[|x|] == c;
    }
  }

  lemma NotContainsChar(s: string, sub: string, c: char)
    requires c in sub && c !in s
    ensures !Contains(s, sub)
  {
    ContainsChars(s, sub, c);
  }

  lemma NotContainsAcross(x: string, c: char, y: string, sub: string)
    requires c !in sub && !Contains(x, sub) && !Contains(y, sub)
    ensures !Contains(x + [c] + y, sub)
  {
    ContainsAcross(x, c, y, sub);
  }

  // ---------------------------------------------------------------------------
  // String.prototype.trim

  /** The characters `trim` removes: ECMAScript WhiteSpace and LineTerminator. */
  predicate IsWhitespace(c: char) {
    var n := c as int;
    n == 0x09 || n == 0x0A || n == 0x0B || n == 0x0C || n == 0x0D || n == 0x20 ||
    n == 0xA0 || n == 0x1680 || 0x2000 <= n <= 0x200A ||
    n == 0x2028 || n == 0x2029 || n == 0x202F || n == 0x205F ||
    n == 0x3000 || n == 0xFEFF
  }

  /** The number of whitespace characters `s` starts with. */
  function LeadingSpace(s: string): (n: nat)
    ensures n <= |s|
    ensures forall k :: 0 <= k < n ==> IsWhitespace(s[k])
    ensures n == |s| || !IsWhitespace(s[n])
  {
    if |s| > 0 && IsWhitespace(s[0]) then 1 + LeadingSpace(s[1..]) else 0
  }

  /** The number of whitespace characters `s` ends with. */
  function TrailingSpace(s: string): (n: nat)
    ensures n <= |s|
    ensures forall k :: |s| - n <= k < |s| ==> IsWhitespace(s[k])
    ensures n == |s| || !IsWhitespace(s[|s| - n - 1])
  {
    if |s| > 0 && IsWhitespace(s[|s| - 1]) then 1 + TrailingSpace(s[..|s| - 1]) else 0
  }

  /** `s.trim()`: the input without its leading and trailing whitespace. */
  function Trim(s: string): (r: string)
    ensures |r| <= |s|
  {
    var t := s[LeadingSpace(s)..];
    t[..|t| - TrailingSpace(t)]
  }

  /** `trim` keeps a contiguous slice of its input, drops only whitespace, and the result has none at either end. */
  lemma TrimSlice(s: string)
    ensures exists i :: OccursAt(s, Trim(s), i)
    ensures |Trim(s)| == 0 || (!IsWhitespace(Trim(s)[0]) && !IsWhitespace(Trim(s)[|Trim(s)| - 1]))
  {
    var i := LeadingSpace(s);
    var t := s[i..];
    var r := Trim(s);
    assert r == t[..|t| - TrailingSpace(t)];
    assert r == s[i..i + |r|];
    assert OccursAt(s, r, i);

    if |r| > 0 {
      assert r[0] == s[i];
      assert r[|r| - 1] == t[|t| - TrailingSpace(t) - 1];
    }
  }

  /**
   * What `trim` removes is whitespace: the result sits right after the
   * leading whitespace, and every character after it is whitespace too.
   */
  lemma TrimDropsOnlyWhitespace(s: string)
    ensures var i := LeadingSpace(s); var r := Trim(s);
      && i + |r| <= |s| && s[i..i + |r|] == r
      && (forall k :: 0 <= k < i ==> IsWhitespace(s[k]))
      && (forall k :: i + |r| <= k < |s| ==> IsWhitespace(s[k]))
  {
    var i := LeadingSpace(s);
    var t := s[i..];
    var n := TrailingSpace(t);
    var r := Trim(s);
    assert r == t[..|t| - n];
    assert i + |r| == |s| - n;
    forall k | i + |r| <= k < |s|
      ensures IsWhitespace(s[k])
    {
      assert s[k] == t[k - i];
    }
  }

  /** Trimming twice is trimming once. */
  lemma TrimIdempotent(s: string)
    ensures Trim(Trim(s)) == Trim(s)
  {
    var r := Trim(s);
    TrimSlice(s);
    if |r| > 0 {
      assert LeadingSpace(r) == 0;
      assert TrailingSpace(r) == 0;
    }
  }

  // ---------------------------------------------------------------------------
  // String.prototype.split and Array.prototype.join with a one-character separator

  /** `s.split(sep)`: the maximal separator-free pieces, including empty ones. */
  function Split(s: string, sep: char): (parts: seq<string>)
    ensures |parts| >= 1
    ensures forall k :: 0 <= k < |parts| ==> sep !in parts[k]
  {
    if |s| == 0 then [""]
    else
      var rest := Split(s[1..], sep);
      if s[0] == sep then [""] + rest
      else [[s[0]] + rest[0]] + rest[1..]
  }

  /** `parts.join(sep)`. */
  function Join(parts: seq<string>, sep: char): string {
    if |parts| == 0 then ""
    else if |parts| == 1 then parts[0]
    else parts[0] + [sep] + Join(parts[1..], sep)
  }

  /** Joining the pieces of a split with the same separator restores the string. */
  lemma {:induction false} JoinSplit(s: string, sep: char)
    ensures Join(Split(s, sep), sep) == s
  {
    if |s| > 0 {
      var rest := Split(s[1..], sep);
      JoinSplit(s[1..], sep);
      if s[0] == sep {
        assert Split(s, sep)[1..] == rest;
      } else if |rest| > 1 {
        assert Split(s, sep)[1..] == rest[1..];
      }
    }
  }

  /** The index of the first occurrence of `c` in `s` (`s.indexOf(c)`). */
  function FirstIndex(s: string, c: char): (i: nat)
    requires c in s
    ensures i < |s| && s[i] == c
    ensures c !in s[..i]
  {
    if s[0] == c then 0 else 1 + FirstIndex(s[1..], c)
  }

  /** A string without the separator splits into itself alone. */
  lemma {:induction false} SplitWithoutSeparator(s: string, sep: char)
    requires sep !in s
    ensures Split(s, sep) == [s]
  {
    if |s| > 0 {
      assert sep !in s[1..];
      SplitWithoutSeparator(s[1..], sep);
      assert [s[0]] + s[1..] == s;
    }
  }

  /** A separator-free piece followed by the separator comes off as the first piece of a split. */
  lemma {:induction false} SplitAfterPiece(a: string, t: string, sep: char)
    requires sep !in a
    ensures Split(a + [sep] + t, sep) == [a] + Split(t, sep)
  {
    var s := a + [sep] + t;
    if |a| == 0 {
      assert s[1..] == t;
    } else {
      assert s[1..] == a[1..] + [sep] + t;
      SplitAfterPiece(a[1..], t, sep);
      assert [a[0]] + a[1..] == a;
    }
  }

  /** The first `c` in `s` is at |p| when `s` is `p`, which lacks `c`, followed by `c`. */
  lemma FirstIndexAfter(s: string, p: string, c: char)
    requires |p| < |s| && s[..|p|] == p && s[|p|] == c && c !in p
    ensures c in s && FirstIndex(s, c) == |p|
  {
    assert c in s by {
      assert s[|p|] == c;
    }
    var i := FirstIndex(s, c);
    assert forall k :: 0 <= k < |p| ==> s[k] == p[k];
    PrefixHolds(s, i, |p|);
  }

  /** A character before position i lies in the prefix of length i. */
  lemma PrefixHolds(s: string, i: int, j: int)
    requires 0 <= j < |s| && 0 <= i <= |s|
    ensures j < i ==> s[j] in s[..i]
  {
    if j < i {
      assert s[..i][j] == s[j];
    }
  }

  /**
   * With a separator present, the first piece is the text before its first
   * occurrence, and the remaining pieces joined back with the separator are
   * exactly the text after it.
   */
  lemma {:induction false} SplitAtFirst(s: string, sep: char)
    requires sep in s
    ensures Split(s, sep)[0] == s[..FirstIndex(s, sep)]
    ensures Join(Split(s, sep)[1..], sep) == s[FirstIndex(s, sep) + 1..]
  {
    var tail := s[1..];
    var rest := Split(tail, sep);
    var parts := Split(s, sep);
    if s[0] == sep {
      assert FirstIndex(s, sep) == 0;
      JoinSplit(tail, sep);
      assert parts == [""] + rest;
      assert parts[1..] == rest;
    } else {
      assert sep in tail by {
        var i := FirstIndex(s, sep);
        assert tail[i - 1] == s[i];
      }
      var j := FirstIndex(tail, sep);
      assert FirstIndex(s, sep) == j + 1;
      SplitAtFirst(tail, sep);
      assert parts == [[s[0]] + rest[0]] + rest[1..];
      assert parts[1..] == rest[1..];
      assert s[..j + 1] == [s[0]] + tail[..j];
      assert s[j + 2..] == tail[j + 1..];
    }
  }
}

=== FILE: performance.dfy ===
/**
 * The simulated k6 performance test of `POST /api/run-performance-test`:
 * input defaults, the synthetic metric series, its summary statistics, the
 * Good/Fair/Poor assessment and the k6 `options` block of the emitted script.
 *
 * The handler's `Math.random()` draws and `Math.sin` values are inputs: one
 * base-latency draw per run and one `SampleOracle` per sample. Everything
 * downstream of them is a pure function. Latencies are whole milliseconds,
 * throughput is in tenths of a request per second and error rates are in
 * tenths of a percent, which is what the handler's rounding produces.
 */
module PerformanceTest {
  import opened Common
  import opened JsNumbers
  import Sorting

  // ---------------------------------------------------------------------------
  // Configuration

  /** The test shapes the handler switches on; any other string falls through every case. */
  datatype TestType = LoadTest | StressTest | SpikeTest | OtherTest(name: string)

  function ParseTestType(s: string): (t: TestType)
    ensures t.OtherTest? <==> s !in {"load-test", "stress-test", "spike-test"}
  {
    if s == "load-test" then LoadTest
    else if s == "stress-test" then StressTest
    else if s == "spike-test" then SpikeTest
    else OtherTest(s)
  }

  /**
   * `parseInt(x) || fallback`: `None` stands for NaN. Only NaN and 0 are
   * replaced; a negative number is kept.
   */
  function OrDefault(parsed: Option<int>, fallback: int): (r: int)
    ensures parsed.Some? && parsed.value != 0 ==> r == parsed.value
    ensures parsed.None? || parsed.value == 0 ==> r == fallback
  {
    if parsed.Some? && parsed.value != 0 then parsed.value else fallback
  }

  // ---------------------------------------------------------------------------
  // Metric series

  /**
   * The values the handler draws for one sample: three `Math.random()` results
   * for the latency, throughput and error-rate jitter, and the two sine values
   * of the spike shape, `sin(2π·t/d)` and `sin(π·t/d)`.
   */
  datatype SampleOracle = SampleOracle(
    latencyDraw: real, rpsDraw: real, errorDraw: real, spikePhase: real, vuWave: real)

  /** Latency (ms), throughput (req/s) and error rate (fraction) before or after shaping. */
  datatype Level = Level(responseTime: real, rps: real, errorRate: real)

  /** One point of `timeSeriesData`; the wall-clock `timestamp` is not modelled. */
  datatype Sample = Sample(
    time: real, responseTime: int, rpsTenths: int, errorRateTenths: int, virtualUsers: int)

  /** `Math.min(duration, 60)`. */
  function SampleCount(duration: int): (n: int)
    ensures n <= 60 && n <= duration
    ensures n == duration || n == 60
  {
    if duration < 60 then duration else 60
  }

  /** Base latency, throughput and error rate per test type; `baseDraw` is the one `Math.random()` of the switch. */
  function Baseline(testType: TestType, virtualUsers: int, baseDraw: real): Level {
    var rps := (2 * virtualUsers) as real;
    match testType
    case LoadTest => Level(150.0 + baseDraw * 100.0, rps, 0.005)
    case StressTest => Level(300.0 + baseDraw * 200.0, rps, 0.02)
    case SpikeTest => Level(250.0 + baseDraw * 300.0, rps, 0.015)
    case OtherTest(_) => Level(200.0, rps, 0.01)
  }

  /** `i * (duration / dataPoints)`: the elapsed seconds of sample `i`. */
  function SampleTime(i: int, duration: int, count: int): real
    requires count > 0
  {
    (i as real) * ((duration as real) / (count as real))
  }

  /** The stress shape degrades every sample after 70% of the duration. */
  predicate LateUnderStress(testType: TestType, time: real, duration: int) {
    testType == StressTest && time > (duration as real) * 0.7
  }

  /** The shape applied to the baseline before jitter: stress degradation, then spike modulation. */
  function Shape(testType: TestType, virtualUsers: int, duration: int, base: Level, time: real, o: SampleOracle): Level
    requires duration > 0
  {
    var stressed :=
      if LateUnderStress(testType, time, duration)
      then Level(base.responseTime * (1.0 + (time / duration as real) * 2.0), base.rps, base.errorRate * 3.0)
      else base;
    if testType == SpikeTest
    then Level(stressed.responseTime + o.spikePhase * 200.0,
               stressed.rps + o.spikePhase * (virtualUsers as real),
               stressed.errorRate)
    else stressed
  }

  /** Uniform noise `(Math.random() - 0.5) * k` on each value. */
  function Jitter(l: Level, o: SampleOracle): Level {
    Level(l.responseTime + (o.latencyDraw - 0.5) * 50.0,
          l.rps + (o.rpsDraw - 0.5) * 5.0,
          l.errorRate + (o.errorDraw - 0.5) * 0.01)
  }

  /**
   * Clamping and rounding of one sample. Whatever the jitter, the latency is at
   * least the 50 ms floor, throughput is never negative, and the error rate is a
   * percentage between 0 and 100. A value already in range is only rounded,
   * one below its range becomes the bound, and an error rate above 100% becomes
   * 100%. Only the spike test modulates the VU count, by the sine wave.
   */
  function Finish(testType: TestType, virtualUsers: int, time: real, l: Level, o: SampleOracle): (s: Sample)
    ensures s.responseTime >= 50
    ensures s.rpsTenths >= 0
    ensures 0 <= s.errorRateTenths <= 1000
    ensures l.responseTime >= 50.0 ==> s.responseTime == Round(l.responseTime)
    ensures l.responseTime < 50.0 ==> s.responseTime == 50
    ensures l.rps >= 0.0 ==> s.rpsTenths == Round(l.rps * 10.0)
    ensures l.rps < 0.0 ==> s.rpsTenths == 0
    ensures 0.0 <= l.errorRate <= 1.0 ==> s.errorRateTenths == Round(l.errorRate * 1000.0)
    ensures l.errorRate < 0.0 ==> s.errorRateTenths == 0
    ensures l.errorRate > 1.0 ==> s.errorRateTenths == 1000
    ensures testType == SpikeTest ==>
      s.virtualUsers == Round((virtualUsers as real) * (1.0 + o.vuWave * 0.5))
    ensures testType != SpikeTest ==> s.virtualUsers == virtualUsers
    ensures s.time == time
  {
    var rt := Max(50.0, l.responseTime);
    var rps := Max(0.0, l.rps);
    var er := Clamp(0.0, 1.0, l.errorRate);
    RoundMonotone(50.0, rt);
    RoundOfInt(50);
    RoundMonotone(0.0, rps * 10.0);
    RoundOfInt(0);
    RoundMonotone(0.0, er * 1000.0);
    RoundMonotone(er * 1000.0, 1000.0);
    RoundOfInt(1000);
    Sample(time, Round(rt), Round(rps * 10.0), Round(er * 1000.0),
           if testType == SpikeTest then Round((virtualUsers as real) * (1.0 + o.vuWave * 0.5))
           else virtualUsers)
  }

  function MakeSample(testType: TestType, virtualUsers: int, duration: int, base: Level,
                      i: int, oracle: nat -> SampleOracle): (s: Sample)
    requires 0 <= i < SampleCount(duration)
  {
    var count := SampleCount(duration);
    var t := SampleTime(i, duration, count);
    var o := oracle(i);
    Finish(testType, virtualUsers, t, Jitter(Shape(testType, virtualUsers, duration, base, t, o), o), o)
  }

  /**
   * `timeSeriesData` of `generatePerformanceMetrics`: one sample per data point,
   * `min(duration, 60)` of them, and none at all for a non-positive duration.
   */
  function Series(testType: TestType, virtualUsers: int, duration: int, baseDraw: real,
                  oracle: nat -> SampleOracle): (r: seq<Sample>)
    ensures duration >= 1 ==> |r| == SampleCount(duration) && 1 <= |r| <= 60
    ensures duration <= 0 ==> r == []
    ensures forall k :: 0 <= k < |r| ==>
      r[k].responseTime >= 50 && r[k].rpsTenths >= 0 && 0 <= r[k].errorRateTenths <= 1000
  {
    var count := SampleCount(duration);
    if count <= 0 then []
    else
      var base := Baseline(testType, virtualUsers, baseDraw);
      seq(count, i requires 0 <= i < count => MakeSample(testType, virtualUsers, duration, base, i, oracle))
  }

  // ---------------------------------------------------------------------------
  // Shape properties

  lemma RealMulMonotone(a: real, b: real, c: real)
    requires 0.0 <= c && a <= b
    ensures a * c <= b * c
  {
  }

  /**
   * Only the stress shape scales latency and error rate, and only after 70% of
   * the duration: there the latency is multiplied by 1 + 2t/d > 2.4 and the
   * error rate by 3. Every other sample keeps the baseline latency, up to the
   * spike modulation, and the baseline error rate.
   */
  lemma StressShaping(testType: TestType, virtualUsers: int, duration: int, base: Level,
                      time: real, o: SampleOracle)
    requires duration > 0
    ensures var s := Shape(testType, virtualUsers, duration, base, time, o);
      && (LateUnderStress(testType, time, duration) ==>
            s.errorRate == 3.0 * base.errorRate
            && s.responseTime == base.responseTime * (1.0 + 2.0 * time / duration as real)
            && 1.0 + 2.0 * time / duration as real > 2.4)
      && (!LateUnderStress(testType, time, duration) ==>
            s.errorRate == base.errorRate
            && s.responseTime == base.responseTime + (if testType == SpikeTest then o.spikePhase * 200.0 else 0.0))
  {
    if LateUnderStress(testType, time, duration) {
      var d := duration as real;
      assert (time / d) * d == time;
      if time / d <= 0.7 {
        RealMulMonotone(time / d, 0.7, d);
        assert false;
      }
    }
  }

  /** The draws are `Math.random()` results, in [0, 1). */
  ghost predicate DrawsInRange(baseDraw: real, oracle: nat -> SampleOracle) {
    && 0.0 <= baseDraw < 1.0
    && forall i: nat :: 0.0 <= oracle(i).latencyDraw < 1.0
  }

  /**
   * Degradation under stress: with genuine random draws, every sample after 70%
   * of a stress test is strictly slower than every sample before it, so the
   * late window stays slower than the early one.
   */
  lemma StressDegradation(virtualUsers: int, duration: int, baseDraw: real, oracle: nat -> SampleOracle,
                          early: int, late: int)
    requires duration >= 1
    requires DrawsInRange(baseDraw, oracle)
    requires 0 <= early < SampleCount(duration) && 0 <= late < SampleCount(duration)
    requires !LateUnderStress(StressTest, SampleTime(early, duration, SampleCount(duration)), duration)
    requires LateUnderStress(StressTest, SampleTime(late, duration, SampleCount(duration)), duration)
    ensures var r := Series(StressTest, virtualUsers, duration, baseDraw, oracle);
      r[early].responseTime < r[late].responseTime
  {
    var count := SampleCount(duration);
    var base := Baseline(StressTest, virtualUsers, baseDraw);
    assert 300.0 <= base.responseTime < 500.0;
    var te := SampleTime(early, duration, count);
    var tl := SampleTime(late, duration, count);
    var oe := oracle(early);
    var ol := oracle(late);
    StressShaping(StressTest, virtualUsers, duration, base, te, oe);
    StressShaping(StressTest, virtualUsers, duration, base, tl, ol);
    var je := Jitter(Shape(StressTest, virtualUsers, duration, base, te, oe), oe);
    var jl := Jitter(Shape(StressTest, virtualUsers, duration, base, tl, ol), ol);
    assert je.responseTime < 525.0;
    var f := 1.0 + 2.0 * tl / duration as real;
    RealMulMonotone(300.0, base.responseTime, f);
    RealMulMonotone(2.4, f, 300.0);
    assert jl.responseTime > 695.0;
    var se := MakeSample(StressTest, virtualUsers, duration, base, early, oracle);
    var sl := MakeSample(StressTest, virtualUsers, duration, base, late, oracle);
    RoundMonotone(Max(50.0, je.responseTime), 525.0);
    RoundOfInt(525);
    RoundMonotone(695.0, Max(50.0, jl.responseTime));
    RoundOfInt(695);
  }

  // ---------------------------------------------------------------------------
  // Summary statistics

  datatype Percentiles = Percentiles(p50: int, p90: int, p95: int, p99: int)

  /** `metrics.summary`; RPS figures in tenths, error figures in tenths of a percent. */
  datatype Summary = Summary(
    totalRequests: int,
    averageResponseTime: int,
    maxResponseTime: int,
    minResponseTime: int,
    averageRpsTenths: int,
    maxRpsTenths: int,
    totalErrors: int,
    averageErrorRateTenths: int,
    percentiles: Percentiles)

  function ResponseTimes(samples: seq<Sample>): (xs: seq<int>)
    ensures |xs| == |samples| && forall k :: 0 <= k < |xs| ==> xs[k] == samples[k].responseTime
  {
    seq(|samples|, k requires 0 <= k < |samples| => samples[k].responseTime)
  }

  function RpsValues(samples: seq<Sample>): (xs: seq<int>)
    ensures |xs| == |samples| && forall k :: 0 <= k < |xs| ==> xs[k] == samples[k].rpsTenths
  {
    seq(|samples|, k requires 0 <= k < |samples| => samples[k].rpsTenths)
  }

  function ErrorRates(samples: seq<Sample>): (xs: seq<int>)
    ensures |xs| == |samples| && forall k :: 0 <= k < |xs| ==> xs[k] == samples[k].errorRateTenths
  {
    seq(|samples|, k requires 0 <= k < |samples| => samples[k].errorRateTenths)
  }

  /**
   * Nearest-rank index `Math.floor(n * q)` for q = percent/100, written in
   * integers; for the handler's 1 <= n <= 60 and q in {0.5, 0.9, 0.95, 0.99}
   * the double-precision product floors to the same index.
   */
  function RankIndex(n: int, percent: int): (k: int)
    requires n >= 1 && 0 <= percent < 100
    ensures 0 <= k < n
    ensures 100 * k <= n * percent < 100 * (k + 1)
  {
    DivBelow(n * percent, 100, n);
    n * percent / 100
  }

  /** Ranks taken at a higher percentile never come earlier. */
  lemma RankIndexMonotone(n: int, p: int, q: int)
    requires n >= 1 && 0 <= p <= q < 100
    ensures RankIndex(n, p) <= RankIndex(n, q)
  {
    MulMonotone(n, p, q);
    DivAtLeast(n * q, 100, n * p / 100) by {
      assert 100 * (n * p / 100) <= n * p by {
        assert n * p == 100 * (n * p / 100) + (n * p) % 100;
      }
    }
  }

  /** The four percentiles, all read from one ascending-sorted copy of the latencies. */
  function PercentilesOf(latencies: seq<int>): (p: Percentiles)
    requires |latencies| >= 1
    ensures p.p50 <= p.p90 <= p.p95 <= p.p99
    ensures MinOf(latencies) <= p.p50 && p.p99 <= MaxOf(latencies)
    ensures var s := Sorting.Sort(latencies); var n := |latencies|;
      && p.p50 == s[RankIndex(n, 50)] && p.p90 == s[RankIndex(n, 90)]
      && p.p95 == s[RankIndex(n, 95)] && p.p99 == s[RankIndex(n, 99)]
  {
    var sorted := Sorting.Sort(latencies);
    var n := |sorted|;
    RanksOrdered(latencies);
    Percentiles(sorted[RankIndex(n, 50)], sorted[RankIndex(n, 90)],
                sorted[RankIndex(n, 95)], sorted[RankIndex(n, 99)])
  }

  /** Nearest ranks read from the sorted copy are ordered and bracketed by the extremes. */
  lemma RanksOrdered(latencies: seq<int>)
    requires |latencies| >= 1
    ensures var s := Sorting.Sort(latencies); var n := |s|;
      && MinOf(latencies) <= s[RankIndex(n, 50)] <= s[RankIndex(n, 90)]
      && s[RankIndex(n, 90)] <= s[RankIndex(n, 95)] <= s[RankIndex(n, 99)] <= MaxOf(latencies)
  {
    var s := Sorting.Sort(latencies);
    var n := |s|;
    RankIndexMonotone(n, 50, 90);
    RankIndexMonotone(n, 90, 95);
    RankIndexMonotone(n, 95, 99);
    Sorting.SortedAt(s, RankIndex(n, 50), RankIndex(n, 90));
    Sorting.SortedAt(s, RankIndex(n, 90), RankIndex(n, 95));
    Sorting.SortedAt(s, RankIndex(n, 95), RankIndex(n, 99));
    MinMaxBounds(latencies);
    Sorting.SortedElementsFromInput(latencies, RankIndex(n, 50));
    Sorting.SortedElementsFromInput(latencies, RankIndex(n, 99));
  }

  /**
   * The `summary` object of `generatePerformanceMetrics`. An empty series has
   * no meaningful summary (the handler computes NaN, -Infinity and undefined
   * fields there), which is `None`. The percentiles are ordered and lie
   * between the minimum and maximum latency, the mean latency lies between
   * them too, the mean error rate stays a percentage when every sample's does,
   * and the request total is never negative.
   */
  function Summarize(samples: seq<Sample>, duration: int): (r: Option<Summary>)
    ensures r.None? <==> |samples| == 0
    ensures r.Some? ==> var s := r.value;
      && s.minResponseTime <= s.percentiles.p50 <= s.percentiles.p90
      && s.percentiles.p90 <= s.percentiles.p95 <= s.percentiles.p99 <= s.maxResponseTime
      && s.minResponseTime <= s.averageResponseTime <= s.maxResponseTime
      && (forall k :: 0 <= k < |samples| ==> s.minResponseTime <= samples[k].responseTime <= s.maxResponseTime)
      && (exists k :: 0 <= k < |samples| && samples[k].responseTime == s.minResponseTime)
      && (exists k :: 0 <= k < |samples| && samples[k].responseTime == s.maxResponseTime)
    ensures r.Some? && (forall k :: 0 <= k < |samples| ==> 0 <= samples[k].errorRateTenths <= 1000) ==>
      0 <= r.value.averageErrorRateTenths <= 1000
    ensures r.Some? && duration >= 0 && (forall k :: 0 <= k < |samples| ==> samples[k].rpsTenths >= 0) ==>
      r.value.totalRequests >= 0 && r.value.averageRpsTenths >= 0
  {
    if |samples| == 0 then None
    else
      var n := |samples|;
      var rts := ResponseTimes(samples);
      var rps := RpsValues(samples);
      var errs := ErrorRates(samples);
      RoundedMeanWithin(rts);
      MinMaxBounds(rts);
      RoundedMeanWithin(errs);
      MinMaxBounds(errs);
      RoundedMeanWithin(rps);
      MinMaxBounds(rps);
      TotalRequestsNonNegative(rps, duration);
      assert MinOf(rts) in rts && MaxOf(rts) in rts;
      Some(Summary(
        RequestTotal(rps, duration),
        RoundedMean(rts),
        MaxOf(rts),
        MinOf(rts),
        RoundedMean(rps),
        MaxOf(rps),
        ErrorTotal(errs),
        RoundedMean(errs),
        PercentilesOf(rts)))
  }

  /** `Math.round(sum(rps) * duration / dataPoints)`, with throughput in tenths. */
  function RequestTotal(rps: seq<int>, duration: int): (t: int)
    requires |rps| > 0
    ensures t == Round((Sum(rps) * duration) as real / (10 * |rps|) as real)
  {
    RoundDivIsRound(Sum(rps) * duration, 10 * |rps|);
    RoundDiv(Sum(rps) * duration, 10 * |rps|)
  }

  /** `Math.round(sum(errorRate) / 10)`, with error rates in tenths of a percent. */
  function ErrorTotal(errs: seq<int>): (t: int)
    ensures t == Round(Sum(errs) as real / 100 as real)
  {
    RoundDivIsRound(Sum(errs), 100);
    RoundDiv(Sum(errs), 100)
  }

  /** The summary's percentiles are the nearest ranks of the samples' latencies. */
  lemma SummaryPercentiles(samples: seq<Sample>, duration: int)
    requires |samples| > 0
    ensures Summarize(samples, duration).value.percentiles == PercentilesOf(ResponseTimes(samples))
  {
  }

  /** Every mean of the summary is `Math.round(sum / dataPoints)` of its series. */
  lemma SummaryMeans(samples: seq<Sample>, duration: int)
    requires |samples| > 0
    ensures var s := Summarize(samples, duration).value; var n := |samples|;
      && s.averageResponseTime == Round(Sum(ResponseTimes(samples)) as real / n as real)
      && s.averageRpsTenths == Round(Sum(RpsValues(samples)) as real / n as real)
      && s.averageErrorRateTenths == Round(Sum(ErrorRates(samples)) as real / n as real)
  {
  }

  /**
   * The request total is `Math.round(sum(rps) * duration / dataPoints)`
   * (throughput is in tenths, hence the factor 10), the error total is
   * `Math.round(sum(errorRate) / 100)` in the same tenths, and the peak
   * throughput is one of the samples' and bounds them all.
   */
  lemma SummaryTotals(samples: seq<Sample>, duration: int)
    requires |samples| > 0
    ensures var s := Summarize(samples, duration).value;
      && s.totalRequests == Round((Sum(RpsValues(samples)) * duration) as real / (10 * |samples|) as real)
      && s.totalErrors == Round(Sum(ErrorRates(samples)) as real / 100 as real)
      && s.maxRpsTenths in RpsValues(samples)
      && (forall k :: 0 <= k < |samples| ==> samples[k].rpsTenths <= s.maxRpsTenths)
  {
    MinMaxBounds(RpsValues(samples));
  }

  /** `Math.round(sum(rps) * duration / dataPoints)` is not negative for non-negative throughput. */
  lemma TotalRequestsNonNegative(rps: seq<int>, duration: int)
    requires |rps| > 0
    ensures duration >= 0 && (forall k :: 0 <= k < |rps| ==> rps[k] >= 0) ==>
      RoundDiv(Sum(rps) * duration, 10 * |rps|) >= 0
  {
    if duration >= 0 && (forall k :: 0 <= k < |rps| ==> rps[k] >= 0) {
      SumNonNegative(rps);
      MulMonotone(duration, 0, Sum(rps));
      RoundDivBetween(Sum(rps) * duration, 10 * |rps|, 0, Sum(rps) * duration);
    }
  }

  // ---------------------------------------------------------------------------
  // Assessment (generateTestSummary)

  datatype Rating = Good | Fair | Poor {
    function Rank(): nat {
      match this
      case Good => 0
      case Fair => 1
      case Poor => 2
    }
  }

  datatype Advice =
    | OptimizeBackend
    | ImproveSlowEndpoints
    | CheckStability
    | MonitorErrorRate
    | InvestigateOutliers
    | LooksHealthy
  {
    /** The position of the rule that emits this line in `generateTestSummary`. */
    function Order(): nat {
      match this
      case OptimizeBackend => 0
      case ImproveSlowEndpoints => 1
      case CheckStability => 2
      case MonitorErrorRate => 3
      case InvestigateOutliers => 4
      case LooksHealthy => 5
    }

    function Text(): string {
      match this
      case OptimizeBackend => "Response times are high - consider optimizing backend performance"
      case ImproveSlowEndpoints => "Response times could be improved - investigate slow endpoints"
      case CheckStability => "High error rate detected - check application stability"
      case MonitorErrorRate => "Monitor error rate - ensure proper error handling"
      case InvestigateOutliers => "High response time variance - investigate performance outliers"
      case LooksHealthy => "Performance looks healthy - continue monitoring"
    }
  }

  /** The four `keyFindings` lines, by the figure each one reports. */
  datatype KeyFinding =
    | AverageResponseTime(ms: int)
    | PeakRps(tenths: int)
    | TotalRequests(count: int)
    | ErrorRate(tenths: int)

  datatype TestSummary = TestSummary(overall: Rating, recommendations: seq<Advice>, keyFindings: seq<KeyFinding>)

  /** The latency rules: above 500 ms is poor, above 300 ms fair. */
  function LatencyRule(avg: int): (Rating, seq<Advice>) {
    if avg > 500 then (Poor, [OptimizeBackend])
    else if avg > 300 then (Fair, [ImproveSlowEndpoints])
    else (Good, [])
  }

  /**
   * `generateTestSummary`. The rating is Poor when the mean latency exceeds
   * 500 ms or the mean error rate exceeds 5%, Fair when the latency is in
   * (300, 500] and the error rate is at most 5%, and Good otherwise. The
   * recommendation list is never empty; the "healthy" line appears exactly when no
   * other rule fired, and the variance note exactly when p95 exceeds twice the
   * mean. The key findings report the mean latency, peak throughput, request
   * total and mean error rate, in that order.
   */
  function AssessSummary(s: Summary): (t: TestSummary)
    ensures t.overall == Poor <==> s.averageResponseTime > 500 || s.averageErrorRateTenths > 50
    ensures t.overall == Fair <==>
      300 < s.averageResponseTime <= 500 && s.averageErrorRateTenths <= 50
    ensures t.overall == Good <==> s.averageResponseTime <= 300 && s.averageErrorRateTenths <= 50
    ensures |t.recommendations| >= 1
    ensures (LooksHealthy in t.recommendations) <==>
      s.averageResponseTime <= 300 && s.averageErrorRateTenths <= 10 &&
      s.percentiles.p95 <= 2 * s.averageResponseTime
    ensures LooksHealthy in t.recommendations ==> t.recommendations == [LooksHealthy]
    ensures (InvestigateOutliers in t.recommendations) <==> s.percentiles.p95 > 2 * s.averageResponseTime
    ensures (CheckStability in t.recommendations) <==> s.averageErrorRateTenths > 50
    ensures (MonitorErrorRate in t.recommendations) <==> 10 < s.averageErrorRateTenths <= 50
    ensures (OptimizeBackend in t.recommendations) <==> s.averageResponseTime > 500
    ensures (ImproveSlowEndpoints in t.recommendations) <==> 300 < s.averageResponseTime <= 500
    ensures t.keyFindings == [AverageResponseTime(s.averageResponseTime), PeakRps(s.maxRpsTenths),
                              TotalRequests(s.totalRequests), ErrorRate(s.averageErrorRateTenths)]
  {
    var (latencyRating, latencyAdvice) := LatencyRule(s.averageResponseTime);
    var rating := if s.averageErrorRateTenths > 50 then Poor else latencyRating;
    var errorAdvice :=
      if s.averageErrorRateTenths > 50 then [CheckStability]
      else if s.averageErrorRateTenths > 10 then [MonitorErrorRate]
      else [];
    var varianceAdvice := if s.percentiles.p95 > s.averageResponseTime * 2 then [InvestigateOutliers] else [];
    var advice := latencyAdvice + errorAdvice + varianceAdvice;
    TestSummary(
      rating,
      if |advice| == 0 then [LooksHealthy] else advice,
      [AverageResponseTime(s.averageResponseTime), PeakRps(s.maxRpsTenths),
       TotalRequests(s.totalRequests), ErrorRate(s.averageErrorRateTenths)])
  }

  /** Each fired rule contributes one line, in the order `generateTestSummary` tests the rules. */
  lemma AdviceInRuleOrder(s: Summary)
    ensures var recs := AssessSummary(s).recommendations;
      forall i, j :: 0 <= i < j < |recs| ==> recs[i].Order() < recs[j].Order()
  {
  }

  /** A slower or more error-prone run never gets a better rating. */
  lemma RatingMonotone(a: Summary, b: Summary)
    requires a.averageResponseTime <= b.averageResponseTime
    requires a.averageErrorRateTenths <= b.averageErrorRateTenths
    ensures AssessSummary(a).overall.Rank() <= AssessSummary(b).overall.Rank()
  {
  }

  /** The assessment reads nothing but the summary: equal summaries give equal verdicts. */
  lemma AssessmentDeterministic(a: Summary, b: Summary)
    requires a.averageResponseTime == b.averageResponseTime
    requires a.averageErrorRateTenths == b.averageErrorRateTenths
    requires a.percentiles.p95 == b.percentiles.p95
    ensures AssessSummary(a).overall == AssessSummary(b).overall
    ensures AssessSummary(a).recommendations == AssessSummary(b).recommendations
  {
  }

  // ---------------------------------------------------------------------------
  // k6 script options (generateK6Script)

  datatype Stage = Stage(seconds: int, target: int)

  /** The `options` block of the script: flat VUs and duration, a list of stages, or nothing. */
  datatype K6Options = FlatLoad(vus: int, seconds: int) | Staged(stages: seq<Stage>) | NoOptions

  /**
   * The load test runs flat; the stress test ramps to the VUs, doubles them and
   * ramps down, each stage a rounded third of the duration; the spike test goes
   * through stages of rounded 10/20/40/20/10% of the duration targeting one,
   * five, one and three times the VUs and then zero. Unknown types get no options.
   */
  function ScriptOptions(testType: TestType, virtualUsers: int, duration: int): (o: K6Options)
    ensures testType == LoadTest <==> o == FlatLoad(virtualUsers, duration)
    ensures testType == StressTest ==>
      && o.Staged? && |o.stages| == 3
      && o.stages[0].target == virtualUsers && o.stages[1].target == 2 * virtualUsers && o.stages[2].target == 0
    ensures testType == SpikeTest ==>
      && o.Staged? && |o.stages| == 5
      && o.stages[1].target == 5 * virtualUsers && o.stages[4].target == 0
    ensures testType.OtherTest? <==> o == NoOptions
    ensures testType == StressTest ==> var third := Round(duration as real / 3.0);
      o.stages == [Stage(third, virtualUsers), Stage(third, 2 * virtualUsers), Stage(third, 0)]
    ensures testType == SpikeTest ==> var d := duration as real;
      o.stages == [Stage(Round(d * 0.1), virtualUsers), Stage(Round(d * 0.2), 5 * virtualUsers),
                   Stage(Round(d * 0.4), virtualUsers), Stage(Round(d * 0.2), 3 * virtualUsers),
                   Stage(Round(d * 0.1), 0)]
  {
    match testType
    case LoadTest => FlatLoad(virtualUsers, duration)
    case StressTest =>
      RoundDivIsRound(duration, 3);
      var third := RoundDiv(duration, 3);
      Staged([Stage(third, virtualUsers), Stage(third, virtualUsers * 2), Stage(third, 0)])
    case SpikeTest =>
      RoundDivIsRound(duration, 10);
      RoundDivIsRound(duration, 5);
      RoundDivIsRound(2 * duration, 5);
      Staged([Stage(RoundDiv(duration, 10), virtualUsers),
              Stage(RoundDiv(duration, 5), virtualUsers * 5),
              Stage(RoundDiv(2 * duration, 5), virtualUsers),
              Stage(RoundDiv(duration, 5), virtualUsers * 3),
              Stage(RoundDiv(duration, 10), 0)])
    case OtherTest(_) => NoOptions
  }

  function TotalSeconds(stages: seq<Stage>): int {
    if |stages| == 0 then 0 else stages[0].seconds + TotalSeconds(stages[1..])
  }

  /** The staged scripts last the requested duration up to rounding: within 1 s for stress, 2 s for spike. */
  lemma StagedDurationMatches(testType: TestType, virtualUsers: int, duration: int)
    ensures testType == StressTest ==>
      -1 <= TotalSeconds(ScriptOptions(testType, virtualUsers, duration).stages) - duration <= 1
    ensures testType == SpikeTest ==>
      -2 <= TotalSeconds(ScriptOptions(testType, virtualUsers, duration).stages) - duration <= 2
  {
    var o := ScriptOptions(testType, virtualUsers, duration);
    if testType == StressTest {
      var a := RoundDiv(duration, 3);
      RoundDivNear(duration, 3);
      assert TotalSeconds(o.stages[2..]) == a;
      assert TotalSeconds(o.stages[1..]) == 2 * a;
    }
    if testType == SpikeTest {
      var b := RoundDiv(duration, 10);
      var c := RoundDiv(duration, 5);
      var e := RoundDiv(2 * duration, 5);
      RoundDivNear(duration, 10);
      RoundDivNear(duration, 5);
      RoundDivNear(2 * duration, 5);
      assert TotalSeconds(o.stages[4..]) == b;
      assert TotalSeconds(o.stages[3..]) == b + c;
      assert TotalSeconds(o.stages[2..]) == b + c + e;
      assert TotalSeconds(o.stages[1..]) == b + 2 * c + e;
    }
  }

  /** No stage of the spike script targets more users than the spike stage itself. */
  lemma SpikePeakIsHighest(virtualUsers: int, duration: int)
    requires virtualUsers >= 0
    ensures var o := ScriptOptions(SpikeTest, virtualUsers, duration);
      forall k :: 0 <= k < |o.stages| ==> o.stages[k].target <= o.stages[1].target
  {
  }

  // ---------------------------------------------------------------------------
  // The request handler

  /** The JSON body, after `parseInt` of the two numeric fields (`None` is NaN). */
  datatype PerfRequest = PerfRequest(
    testType: Option<string>, targetUrl: Option<string>, virtualUsers: Option<int>, duration: Option<int>)

  datatype PerfError = MissingParameters | InvalidUrlFormat {
    function Message(): string {
      match this
      case MissingParameters => "Missing required parameters: testType and targetUrl"
      case InvalidUrlFormat => "Invalid URL format"
    }
  }

  datatype TestConfig = TestConfig(testType: TestType, targetUrl: string, virtualUsers: int, duration: int)

  datatype PerfReport = PerfReport(
    config: TestConfig,
    series: seq<Sample>,
    summary: Option<Summary>,
    assessment: Option<TestSummary>,
    options: K6Options)

  /**
   * `POST /api/run-performance-test`, given `new URL(...)` as the validity
   * predicate `validUrl` and the random draws. Missing fields are reported
   * before the URL is parsed; VUs default to 10 and the duration to 30 only
   * when NaN or 0; a positive duration yields min(duration, 60) samples and a
   * summary. The response carries the generated series, its summary, the
   * assessment of that summary and the k6 options for the same configuration.
   */
  function RunPerformanceTest(req: PerfRequest, validUrl: string -> bool, baseDraw: real,
                              oracle: nat -> SampleOracle): (r: Result<PerfReport, PerfError>)
    ensures Missing(req.testType) || Missing(req.targetUrl) <==> r == Err(MissingParameters)
    ensures r == Err(InvalidUrlFormat) <==>
      !Missing(req.testType) && !Missing(req.targetUrl) && !validUrl(req.targetUrl.value)
    ensures r.Ok? ==> var rep := r.value;
      && rep.config.duration == OrDefault(req.duration, 30)
      && rep.config.virtualUsers == OrDefault(req.virtualUsers, 10)
      && (rep.config.duration >= 1 ==>
            |rep.series| == SampleCount(rep.config.duration) && rep.summary.Some? && rep.assessment.Some?)
      && (rep.config.duration < 0 ==> rep.series == [] && rep.summary.None?)
    ensures r.Ok? ==> var rep := r.value; var c := rep.config;
      && c == TestConfig(ParseTestType(req.testType.value), req.targetUrl.value,
                         OrDefault(req.virtualUsers, 10), OrDefault(req.duration, 30))
      && rep.series == Series(c.testType, c.virtualUsers, c.duration, baseDraw, oracle)
      && rep.summary == Summarize(rep.series, c.duration)
      && (rep.summary.Some? ==> rep.assessment == Some(AssessSummary(rep.summary.value)))
      && rep.options == ScriptOptions(c.testType, c.virtualUsers, c.duration)
  {
    if Missing(req.testType) || Missing(req.targetUrl) then Err(MissingParameters)
    else if !validUrl(req.targetUrl.value) then Err(InvalidUrlFormat)
    else
      var testType := ParseTestType(req.testType.value);
      var vus := OrDefault(req.virtualUsers, 10);
      var duration := OrDefault(req.duration, 30);
      var series := Series(testType, vus, duration, baseDraw, oracle);
      var summary := Summarize(series, duration);
      Ok(PerfReport(
        TestConfig(testType, req.targetUrl.value, vus, duration),
        series,
        summary,
        if summary.Some? then Some(AssessSummary(summary.value)) else None,
        ScriptOptions(testType, vus, duration)))
  }
}

=== FILE: playground.dfy ===
/**
 * The request editor of the API testing playground: adding a header from a
 * `Name: value` line, removing a header, and the colour of a response status.
 */
module ApiPlayground {
  import opened JsStrings
  import ApiTest

  /** The headers of the request being edited. */
  type Headers = map<string, string>

  /**
   * `addHeader`: a line without ':' leaves headers and input untouched.
   * Otherwise the name is the trimmed text before the first ':', the value the
   * trimmed text after it (further colons included), the header is set,
   * replacing any earlier value, and the input line is cleared.
   */
  function AddHeader(headers: Headers, input: string): (r: (Headers, string))
    ensures ':' !in input ==> r == (headers, input)
    ensures ':' in input ==> r.1 == "" && r.0 == headers[HeaderName(input) := HeaderField(input)]
  {
    if ':' in input then
      var parts := Split(input, ':');
      SplitParts(input);
      (headers[Trim(parts[0]) := Trim(Join(parts[1..], ':'))], "")
    else (headers, input)
  }

  /** The trimmed text before the first ':' of a header line. */
  function HeaderName(input: string): string
    requires ':' in input
  {
    Trim(input[..FirstIndex(input, ':')])
  }

  /** The trimmed text after the first ':' of a header line. */
  function HeaderField(input: string): string
    requires ':' in input
  {
    Trim(input[FirstIndex(input, ':') + 1..])
  }

  /** Splitting on ':' and joining back all pieces but the first cuts the line at its first ':'. */
  lemma SplitParts(input: string)
    requires ':' in input
    ensures Trim(Split(input, ':')[0]) == HeaderName(input)
    ensures Trim(Join(Split(input, ':')[1..], ':')) == HeaderField(input)
  {
    SplitAtFirst(input, ':');
  }

  /** `removeHeader`: the key is gone and every other header is kept as it was. */
  function RemoveHeader(headers: Headers, key: string): (r: Headers)
    ensures key !in r
    ensures forall k :: k != key ==> (k in r <==> k in headers)
    ensures forall k :: k in r ==> r[k] == headers[k]
  {
    headers - {key}
  }

  /**
   * Typing `name: value` for a name without ':' and both parts already
   * trimmed sets exactly that header to exactly that value.
   */
  lemma AddHeaderRoundTrip(headers: Headers, name: string, value: string)
    requires ':' !in name && Trim(name) == name && Trim(value) == value
    ensures AddHeader(headers, name + [':'] + value) == (headers[name := value], "")
  {
    LineParts(name, value);
  }

  /** The line `name:value` names `name` and carries `value`. */
  lemma LineParts(name: string, value: string)
    requires ':' !in name && Trim(name) == name && Trim(value) == value
    ensures ':' in name + [':'] + value
    ensures HeaderName(name + [':'] + value) == name
    ensures HeaderField(name + [':'] + value) == value
  {
    var input := name + [':'] + value;
    FirstIndexAfter(input, name, ':');
    assert input[..|name|] == name;
    assert input[|name| + 1..] == value;
  }

  /** Removing a header just added restores the editor to its state without that header. */
  lemma RemoveUndoesAdd(headers: Headers, input: string)
    requires ':' in input
    ensures RemoveHeader(AddHeader(headers, input).0, HeaderName(input)) == RemoveHeader(headers, HeaderName(input))
  {
    RemoveAfterSet(headers, HeaderName(input), HeaderField(input));
  }

  /** Removing a key right after setting it forgets the value it was set to. */
  lemma RemoveAfterSet(headers: Headers, key: string, value: string)
    ensures RemoveHeader(headers[key := value], key) == RemoveHeader(headers, key)
  {
  }

  /** `getStatusColor`: the Tailwind text class of a response status. */
  function StatusColor(status: int): string {
    "text-" + StatusHue(status) + "-600"
  }

  /**
   * The colour family of a status: green for 2xx, yellow for 3xx, orange for
   * 4xx, red from 500 on, gray below 200. The playground colours a status as
   * the test handler's status analysis does, except that client errors are
   * shown orange rather than red.
   */
  function StatusHue(status: int): (hue: string)
    ensures hue == if 400 <= status < 500 then "orange" else ApiTest.StatusAnalysis(status).Color()
  {
    if 200 <= status < 300 then "green"
    else if 300 <= status < 400 then "yellow"
    else if 400 <= status < 500 then "orange"
    else if status >= 500 then "red"
    else "gray"
  }
}

=== FILE: scanner_display.dfy ===
/**
 * The result display of the security scanner page: the colour of a score,
 * the colour of a risk label, and `safeGet`, the dotted-path lookup through
 * which the page reads every field of a scan report.
 */
module ScannerDisplay {
  import opened Common
  import opened JsStrings
  import opened Json
  import SecurityScan

  /** The Tailwind colour families the page uses for scores and risk badges. */
  datatype Tone = Gray | Green | Yellow | Orange | Red {
    /** Position on the scale from worst to best; gray stands outside it. */
    function Rank(): nat {
      match this
      case Red => 0
      case Orange => 1
      case Yellow => 2
      case Green => 3
      case Gray => 0
    }

    function Name(): string {
      match this
      case Gray => "gray"
      case Green => "green"
      case Yellow => "yellow"
      case Orange => "orange"
      case Red => "red"
    }

    /** The text class of a score: a lighter shade for a missing score. */
    function TextClass(): string {
      if this == Gray then "text-gray-400" else "text-" + Name() + "-600"
    }

    /** The background and text classes of a risk badge. */
    function BadgeClass(): string {
      "bg-" + Name() + "-100 text-" + Name() + "-800"
    }
  }

  // ---------------------------------------------------------------------------
  // getScoreColor

  /**
   * The number a relational comparison sees (`ToNumber`), `None` for NaN.
   * How a string converts is a parameter; an array or object is taken to
   * convert to NaN.
   */
  function NumberOf(v: Value, stringNumber: string -> Option<real>): Option<real> {
    match v
    case Null => Some(0.0)
    case Bool(b) => Some(if b then 1.0 else 0.0)
    case Num(n) => Some(n)
    case Str(s) => stringNumber(s)
    case Arr(_) => None
    case Obj(_) => None
  }

  /** The score ladder: 80 and up green, 60 yellow, 40 orange, below that red. */
  function ScoreTone(n: real): (t: Tone)
    ensures t != Gray
    ensures t == Green <==> n >= 80.0
    ensures t == Yellow <==> 60.0 <= n < 80.0
    ensures t == Orange <==> 40.0 <= n < 60.0
    ensures t == Red <==> n < 40.0
  {
    if n >= 80.0 then Green
    else if n >= 60.0 then Yellow
    else if n >= 40.0 then Orange
    else Red
  }

  /** A higher score never gets a worse colour. */
  lemma ScoreToneMonotone(a: real, b: real)
    requires a <= b
    ensures ScoreTone(a).Rank() <= ScoreTone(b).Rank()
  {
  }

  /**
   * `getScoreColor`: a missing score (`undefined`, or a falsy value other
   * than the number 0) is gray; every other value is placed on the ladder,
   * and a value that compares as NaN fails every threshold and is red.
   */
  function ScoreColor(score: Option<Value>, stringNumber: string -> Option<real>): (t: Tone)
    ensures t == Gray <==> score.None? || (!Truthy(score.value) && score.value != Num(0.0))
    ensures score == Some(Num(0.0)) ==> t == Red
    ensures t != Gray ==> match NumberOf(score.value, stringNumber)
                          case None => t == Red
                          case Some(n) => t == ScoreTone(n)
  {
    if score.None? || (!Truthy(score.value) && score.value != Num(0.0)) then Gray
    else
      match NumberOf(score.value, stringNumber)
      case None => Red
      case Some(n) => ScoreTone(n)
  }

  /** Between two numeric scores, the higher one never gets a worse colour. */
  lemma ScoreColorMonotone(a: real, b: real, stringNumber: string -> Option<real>)
    requires a <= b
    ensures ScoreColor(Some(Num(a)), stringNumber).Rank() <= ScoreColor(Some(Num(b)), stringNumber).Rank()
  {
    ScoreToneMonotone(a, b);
  }

  // ---------------------------------------------------------------------------
  // getRiskColor

  /** The risk labels the badge knows, in lower case. */
  const KnownRisks: set<string> := {"low", "medium", "high", "critical"}

  /**
   * `getRiskColor`: a missing or empty label is gray; otherwise the label is
   * lower-cased and low, medium, high and critical are green, yellow,
   * orange and red, and any other label is gray.
   */
  function RiskColor(risk: Option<string>): (t: Tone)
    ensures t == Green <==> risk.Some? && Lower(risk.value) == "low"
    ensures t == Yellow <==> risk.Some? && Lower(risk.value) == "medium"
    ensures t == Orange <==> risk.Some? && Lower(risk.value) == "high"
    ensures t == Red <==> risk.Some? && Lower(risk.value) == "critical"
    ensures t == Gray <==> risk.None? || Lower(risk.value) !in KnownRisks
  {
    if risk.None? || risk.value == "" then Gray
    else
      var lowered := Lower(risk.value);
      if lowered == "low" then Green
      else if lowered == "medium" then Yellow
      else if lowered == "high" then Orange
      else if lowered == "critical" then Red
      else Gray
  }

  /** The badge colour ignores the case of the label. */
  lemma RiskColorIgnoresCase(s: string)
    ensures RiskColor(Some(Upper(s))) == RiskColor(Some(s))
    ensures RiskColor(Some(Lower(s))) == RiskColor(Some(s))
  {
    LowerOfUpper(s);
    LowerIdempotent(s);
  }

  /** Every level the scan assesses gets a colour of its own, ordered as the levels are. */
  lemma RiskColorOfLevel(l: SecurityScan.Level, text: string)
    requires text == l.Label()
    ensures RiskColor(Some(text)) != Gray
    ensures RiskColor(Some(text)).Rank() == 3 - l.Rank()
  {
    match l
    case Low =>
      assert Lower(text) == "low";
    case Medium =>
      assert Lower(text) == "medium";
    case High =>
      assert Lower(text) == "high";
  }

  /**
   * For an assessed score in 0..100, the score colour and the colour of the
   * risk the scan derives from that score coincide exactly from 40 on; below
   * 40 the score is red while the risk badge stays orange.
   */
  lemma ScoreAndRiskAgree(score: int, stringNumber: string -> Option<real>)
    requires 0 <= score <= 100
    ensures ScoreColor(Some(Num(score as real)), stringNumber) == RiskColor(Some(SecurityScan.RiskOf(score).Label()))
        <==> score >= 40
  {
    var level := SecurityScan.RiskOf(score);
    RiskColorOfLevel(level, level.Label());
  }

  // ---------------------------------------------------------------------------
  // safeGet

  /**
   * One step of the `reduce` in `safeGet`: the property `key` of the current
   * value when that value is truthy and has the property, and the default
   * otherwise.
   */
  function Step(current: Value, key: string, default: Value): (r: Value)
    ensures Truthy(current) && Property(current, key).Some? ==> r == Property(current, key).value
    ensures !Truthy(current) || Property(current, key).None? ==> r == default
  {
    if Truthy(current) && Property(current, key).Some? then Property(current, key).value else default
  }

  /** The left fold of `Step` over the keys of a path. */
  function Walk(current: Value, keys: seq<string>, default: Value): Value
    decreases |keys|
  {
    if |keys| == 0 then current else Walk(Step(current, keys[0], default), keys[1..], default)
  }

  /** `safeGet(obj, path, defaultValue)` as written. */
  function SafeGet(obj: Value, path: string, default: Value): Value {
    Walk(obj, Split(path, '.'), default)
  }

  /**
   * Where a path leads: the value reached when every value on the way is
   * truthy and has the next key, and `None` as soon as one is not.
   */
  function Resolve(v: Value, keys: seq<string>): Option<Value>
    decreases |keys|
  {
    if |keys| == 0 then Some(v)
    else if Truthy(v) && Property(v, keys[0]).Some? then Resolve(Property(v, keys[0]).value, keys[1..])
    else None
  }

  /** When the path resolves, `safeGet` returns the value at its end, whatever the default. */
  lemma {:induction false} WalkResolved(v: Value, keys: seq<string>, default: Value)
    requires Resolve(v, keys).Some?
    ensures Walk(v, keys, default) == Resolve(v, keys).value
    decreases |keys|
  {
    if |keys| > 0 {
      WalkResolved(Property(v, keys[0]).value, keys[1..], default);
    }
  }

  lemma SafeGetResolved(obj: Value, path: string, default: Value)
    requires Resolve(obj, Split(path, '.')).Some?
    ensures SafeGet(obj, path, default) == Resolve(obj, Split(path, '.')).value
  {
    WalkResolved(obj, Split(path, '.'), default);
  }

  /** A leaf that is present but null is returned as null, not replaced by the default. */
  lemma NullLeafIsKept(obj: Value, key: string, default: Value)
    requires '.' !in key && Truthy(obj) && Property(obj, key) == Some(Null)
    ensures SafeGet(obj, key, default) == Null
  {
    SplitWithoutSeparator(key, '.');
    WalkOne(obj, key, default);
  }

  /** On an object, a path without dots is the plain lookup with the default for a missing key. */
  lemma SingleKeyLookup(fields: map<string, Value>, key: string, default: Value)
    requires '.' !in key
    ensures SafeGet(Obj(fields), key, default) == if key in fields then fields[key] else default
  {
    SplitWithoutSeparator(key, '.');
    WalkOne(Obj(fields), key, default);
  }

  /** A one-key path is a single step. */
  lemma WalkOne(v: Value, key: string, default: Value)
    ensures Walk(v, [key], default) == Step(v, key, default)
  {
    assert [key][1..] == [];
  }

  /** Once a falsy default has been substituted, every later step keeps it. */
  lemma {:induction false} WalkFromFalsyDefault(keys: seq<string>, default: Value)
    requires !Truthy(default)
    ensures Walk(default, keys, default) == default
  {
    if |keys| > 0 {
      WalkFromFalsyDefault(keys[1..], default);
    }
  }

  /**
   * The default, once substituted, is itself looked up with the remaining
   * keys: `safeGet({}, 'a.length', 'unknown')` is 7, the length of the
   * default, although the path does not resolve.
   */
  lemma DefaultLeaksIntoPath(path: string, default: Value)
    requires path == "a.length" && default == Str("unknown")
    ensures Resolve(Obj(map[]), Split(path, '.')).None?
    ensures SafeGet(Obj(map[]), path, default) == Num(7.0)
  {
    var a, length := "a", "length";
    assert path == a + ['.'] + length;
    SplitPath(a, length);
    assert Split(path, '.') == [a, length];
    assert [a, length][1..] == [length];
    assert Walk(Obj(map[]), [a, length], default) == Walk(default, [length], default);
    WalkOne(default, length, default);
    assert Property(default, length) == Some(Num(|default.s| as real));
  }

  /** Two dot-free keys joined by a dot split back into the two keys. */
  lemma SplitPath(a: string, b: string)
    requires '.' !in a && '.' !in b
    ensures Split(a + ['.'] + b, '.') == [a, b]
  {
    SplitAfterPiece(a, b, '.');
    SplitWithoutSeparator(b, '.');
  }

  /**
   * The evidently intended `safeGet`: the value at the path when it
   * resolves, and the default in every other case.
   */
  function SafeGetStrict(obj: Value, path: string, default: Value): (r: Value)
    ensures Resolve(obj, Split(path, '.')).Some? ==> r == Resolve(obj, Split(path, '.')).value
    ensures Resolve(obj, Split(path, '.')).None? ==> r == default
  {
    Resolve(obj, Split(path, '.')).GetOr(default)
  }

  /**
   * The two readings differ only in what a substituted default does with
   * the remaining keys: where none of them is a property of the default, or
   * the default is falsy, `safeGet` as written is the intended lookup.
   */
  lemma {:induction false} WalkAgreesWithStrict(v: Value, keys: seq<string>, default: Value)
    requires !Truthy(default) || forall j :: 0 <= j < |keys| ==> Property(default, keys[j]).None?
    ensures Walk(v, keys, default) == Resolve(v, keys).GetOr(default)
    decreases |keys|
  {
    if |keys| > 0 {
      var next := Step(v, keys[0], default);
      WalkAgreesWithStrict(next, keys[1..], default);
      if !(Truthy(v) && Property(v, keys[0]).Some?) {
        if !Truthy(default) {
          WalkFromFalsyDefault(keys[1..], default);
        } else {
          WalkDefaultWithoutProperties(keys[1..], default);
        }
      }
    }
  }

  /** A default with none of the remaining keys as a property stays the result. */
  lemma {:induction false} WalkDefaultWithoutProperties(keys: seq<string>, default: Value)
    requires forall j :: 0 <= j < |keys| ==> Property(default, keys[j]).None?
    ensures Walk(default, keys, default) == default
  {
    if |keys| > 0 {
      WalkDefaultWithoutProperties(keys[1..], default);
    }
  }

  /** A path of one key has no remaining keys to apply to the default, whatever it is. */
  lemma SingleKeyAgrees(obj: Value, key: string, default: Value)
    requires '.' !in key
    ensures SafeGet(obj, key, default) == SafeGetStrict(obj, key, default)
  {
    SplitWithoutSeparator(key, '.');
    WalkOne(obj, key, default);
    assert [key][1..] == [];
    if Truthy(obj) && Property(obj, key).Some? {
      assert Resolve(obj, [key]) == Resolve(Property(obj, key).value, []);
    }
  }

  /** No key of the path after the first is a property of `default`. */
  predicate LacksLaterKeys(default: Value, keys: seq<string>) {
    forall j :: 1 <= j < |keys| ==> Property(default, keys[j]).None?
  }

  /**
   * The first key is looked up in the object itself, so only the keys after
   * it can reach a substituted default: when the default has none of them as
   * a property, or is falsy, `safeGet` as written is the intended lookup.
   */
  lemma LaterKeysAgree(obj: Value, path: string, default: Value)
    requires !Truthy(default) || LacksLaterKeys(default, Split(path, '.'))
    ensures SafeGet(obj, path, default) == SafeGetStrict(obj, path, default)
  {
    var keys := Split(path, '.');
    if |keys| > 0 {
      var rest := keys[1..];
      if Truthy(default) {
        forall j | 0 <= j < |rest|
          ensures Property(default, rest[j]).None?
        {
          var k := j + 1;
          assert 1 <= k < |keys| && rest[j] == keys[k];
        }
      }
      assert Walk(obj, keys, default) == Walk(Step(obj, keys[0], default), rest, default);
      if Truthy(obj) && Property(obj, keys[0]).Some? {
        var next := Property(obj, keys[0]).value;
        assert Resolve(obj, keys) == Resolve(next, rest);
        WalkAgreesWithStrict(next, rest, default);
      } else if !Truthy(default) {
        WalkFromFalsyDefault(rest, default);
      } else {
        WalkDefaultWithoutProperties(rest, default);
      }
    }
  }

  /**
   * The defaults of the detail panels have no property under the keys that
   * follow them: an empty object and a number have none at all, and a string
   * has only `length` and its digit-led indices.
   */
  lemma DefaultLacksKey(default: Value, key: string)
    requires default == Obj(map[]) || default.Num? || (default.Str? && WordKey(key))
    ensures Property(default, key).None?
  {
  }

  /** A key that no string has as a property: neither `length` nor an index. */
  predicate WordKey(key: string) {
    key != "length" && |key| > 0 && !IsDigit(key[0])
  }

  predicate LaterKeysAreWords(keys: seq<string>) {
    forall j :: 1 <= j < |keys| ==> WordKey(keys[j])
  }

  /**
   * The detail panels' reads: an empty-object, numeric or string default
   * before keys that are plain words gives the intended lookup.
   */
  lemma DetailReadsAgree(obj: Value, path: string, default: Value)
    requires default == Obj(map[]) || default.Num? || (default.Str? && LaterKeysAreWords(Split(path, '.')))
    ensures SafeGet(obj, path, default) == SafeGetStrict(obj, path, default)
  {
    var keys := Split(path, '.');
    forall j | 1 <= j < |keys|
      ensures Property(default, keys[j]).None?
    {
      DefaultLacksKey(default, keys[j]);
    }
    LaterKeysAgree(obj, path, default);
  }

  /**
   * The page's headline reads: a falsy default (the numbers shown), a path of
   * one key (the risk label), or the string 'unknown' before the key
   * 'scanDepth', gives the intended lookup.
   */
  lemma HeadlineReadsAgree(obj: Value, path: string, default: Value)
    requires !Truthy(default) || '.' !in path ||
      (default == Str("unknown") && path == "securityHeaders.scanDepth")
    ensures SafeGet(obj, path, default) == SafeGetStrict(obj, path, default)
  {
    if Truthy(default) && '.' !in path {
      SingleKeyAgrees(obj, path, default);
      return;
    }
    if Truthy(default) {
      var headers, depth := "securityHeaders", "scanDepth";
      assert path == headers + ['.'] + depth;
      SplitPath(headers, depth);
      assert ArrayIndex(depth).None? by {
        assert !IsDigit(depth[0]);
      }
      assert Property(default, depth).None?;
    }
    WalkAgreesWithStrict(obj, Split(path, '.'), default);
  }
}

=== FILE: security_scan.dfy ===
/**
 * The security scan of `POST /api/security-scan`: scan configuration, the
 * security-header score over a fetched header map, the simulated SSL and
 * vulnerability sections, and `calculateSecurityAssessment`.
 *
 * The HEAD request's outcome (header map or failure) and the `Math.random()`
 * vulnerability verdicts are inputs.
 */
module SecurityScan {
  import opened Common
  import opened JsNumbers
  import Json

  /** Scan depth of each section: 'basic' for quick scans, 'comprehensive' otherwise. */
  datatype Depth = Basic | Comprehensive

  /** Risk levels and finding severities share one ordered scale. */
  datatype Level = Low | Medium | High {
    function Rank(): nat {
      match this
      case Low => 0
      case Medium => 1
      case High => 2
    }

    /** The label the assessment reports as `risk`. */
    function Label(): string {
      match this
      case Low => "Low"
      case Medium => "Medium"
      case High => "High"
    }
  }

  datatype ScanConfig = ScanConfig(
    includeHeaders: bool, includeSsl: bool, includeVulnerabilities: bool,
    headerDepth: Depth, sslDepth: Depth, vulnerabilityDepth: Depth)

  /** `getScanConfiguration`: every section is always included; only 'quick' is basic. */
  function ScanConfiguration(scanType: Json.Value): (c: ScanConfig)
    ensures c.includeHeaders && c.includeSsl && c.includeVulnerabilities
    ensures c.headerDepth == c.sslDepth == c.vulnerabilityDepth
    ensures c.headerDepth == Basic <==> scanType == Json.Str("quick")
  {
    if scanType == Json.Str("quick") then ScanConfig(true, true, true, Basic, Basic, Basic)
    else ScanConfig(true, true, true, Comprehensive, Comprehensive, Comprehensive)
  }

  // ---------------------------------------------------------------------------
  // Security headers (performHeaderAnalysis)

  const BasicHeaders: seq<string> := [
    "content-security-policy", "strict-transport-security", "x-frame-options", "x-content-type-options"]

  const ComprehensiveHeaders: seq<string> := BasicHeaders + [
    "x-xss-protection", "referrer-policy", "permissions-policy",
    "cross-origin-embedder-policy", "cross-origin-opener-policy"]

  function HeaderNames(depth: Depth): (names: seq<string>)
    ensures depth == Basic ==> |names| == 4
    ensures depth == Comprehensive ==> |names| == 9
    ensures names[..4] == BasicHeaders
  {
    if depth == Basic then BasicHeaders else ComprehensiveHeaders
  }

  /** Number of entries whose value is not null. */
  function CountPresent(entries: seq<(string, Option<string>)>): (n: nat)
    ensures n <= |entries|
  {
    if |entries| == 0 then 0
    else (if entries[0].1.Some? then 1 else 0) + CountPresent(entries[1..])
  }

  datatype HeaderAdvice = ImplementCsp | AddHsts | ConsiderPermissionsPolicy | AddCoep {
    /** The position of the check that emits this line in `performHeaderAnalysis`. */
    function Order(): nat {
      match this
      case ImplementCsp => 0
      case AddHsts => 1
      case ConsiderPermissionsPolicy => 2
      case AddCoep => 3
    }

    function Text(): string {
      match this
      case ImplementCsp => "Implement Content Security Policy (CSP) to prevent XSS attacks"
      case AddHsts => "Add HTTP Strict Transport Security (HSTS) header"
      case ConsiderPermissionsPolicy => "Consider implementing Permissions Policy for fine-grained feature control"
      case AddCoep => "Add Cross-Origin-Embedder-Policy for additional security"
    }
  }

  /** The header section: a scored report, or the failure object of the `catch` block, whose score is 0. */
  datatype HeaderAnalysis =
    | HeaderReport(
        headers: seq<(string, Option<string>)>, present: nat, missing: nat, score: int,
        recommendations: seq<HeaderAdvice>, depth: Depth)
    | HeaderFailure(details: string, depth: Depth)
  {
    function Score(): int {
      match this
      case HeaderReport(_, _, _, score, _, _) => score
      case HeaderFailure(_, _) => 0
    }
  }

  /**
   * `performHeaderAnalysis` given the outcome of the HEAD request. The report
   * lists the 4 or 9 headers of the depth in order with their values; present
   * and missing add up to the total; the score is the rounded percentage
   * present, 100 exactly when nothing is missing and 0 exactly when nothing is
   * present. CSP and HSTS advice appears exactly when those headers are
   * missing; Permissions-Policy and COEP advice only at comprehensive depth
   * and exactly when missing there.
   */
  function AnalyzeHeaders(fetched: Result<map<string, string>, string>, depth: Depth): (a: HeaderAnalysis)
    ensures a.depth == depth
    ensures a.HeaderFailure? <==> fetched.Err?
    ensures a.HeaderFailure? ==> a.Score() == 0
    ensures a.HeaderReport? ==>
      && |a.headers| == |HeaderNames(depth)|
      && (forall k :: 0 <= k < |a.headers| ==>
            a.headers[k] == (HeaderNames(depth)[k], HeaderValue(fetched.value, HeaderNames(depth)[k])))
      && a.present == CountPresent(a.headers)
      && a.present + a.missing == |HeaderNames(depth)|
      && 0 <= a.score <= 100
      && (a.score == 100 <==> a.missing == 0)
      && (a.score == 0 <==> a.present == 0)
      && a.score == Round((100 * a.present) as real / |HeaderNames(depth)| as real)
    ensures a.HeaderReport? ==> var fs := fetched.value;
      && (ImplementCsp in a.recommendations <==> HeaderValue(fs, "content-security-policy").None?)
      && (AddHsts in a.recommendations <==> HeaderValue(fs, "strict-transport-security").None?)
      && (ConsiderPermissionsPolicy in a.recommendations <==>
            depth == Comprehensive && HeaderValue(fs, "permissions-policy").None?)
      && (AddCoep in a.recommendations <==>
            depth == Comprehensive && HeaderValue(fs, "cross-origin-embedder-policy").None?)
  {
    match fetched
    case Err(message) => HeaderFailure(message, depth)
    case Ok(fs) =>
      var names := HeaderNames(depth);
      var entries := Entries(fs, names);
      var total := |names|;
      var present := CountPresent(entries);
      var score := Percentage(present, total);
      assert score == 100 <==> total - present == 0;
      HeaderReport(entries, present, total - present, score, HeaderAdviceFor(fs, depth), depth)
  }

  /** Each listed header name paired with its truthy value in the fetched headers. */
  function Entries(fs: map<string, string>, names: seq<string>): (entries: seq<(string, Option<string>)>)
    ensures |entries| == |names|
    ensures forall k :: 0 <= k < |names| ==> entries[k] == (names[k], HeaderValue(fs, names[k]))
  {
    seq(|names|, k requires 0 <= k < |names| => (names[k], HeaderValue(fs, names[k])))
  }

  /**
   * The header advice: CSP and HSTS whenever missing, Permissions-Policy and
   * COEP only at comprehensive depth and only when missing.
   */
  function HeaderAdviceFor(fs: map<string, string>, depth: Depth): (advice: seq<HeaderAdvice>)
    ensures ImplementCsp in advice <==> HeaderValue(fs, "content-security-policy").None?
    ensures AddHsts in advice <==> HeaderValue(fs, "strict-transport-security").None?
    ensures ConsiderPermissionsPolicy in advice <==>
      depth == Comprehensive && HeaderValue(fs, "permissions-policy").None?
    ensures AddCoep in advice <==>
      depth == Comprehensive && HeaderValue(fs, "cross-origin-embedder-policy").None?
    ensures forall i, j :: 0 <= i < j < |advice| ==> advice[i].Order() < advice[j].Order()
  {
    (if HeaderValue(fs, "content-security-policy").None? then [ImplementCsp] else []) +
    (if HeaderValue(fs, "strict-transport-security").None? then [AddHsts] else []) +
    (if depth == Comprehensive then
       (if HeaderValue(fs, "permissions-policy").None? then [ConsiderPermissionsPolicy] else []) +
       (if HeaderValue(fs, "cross-origin-embedder-policy").None? then [AddCoep] else [])
     else [])
  }

  // ---------------------------------------------------------------------------
  // SSL/TLS (performSSLAnalysis)

  datatype SslAdvice = RenewSoon | FollowsBestPractices | CertificateTransparency | AppearsSecure

  datatype SslReport = SslReport(grade: string, score: int, daysUntilExpiry: int,
                                 recommendations: seq<SslAdvice>, depth: Depth)

  /** The simulated certificate report: grade A, score 95, 90 days to expiry, so never a renewal warning. */
  function SslAnalysis(depth: Depth): (r: SslReport)
    ensures r.score == 95 && r.depth == depth
    ensures RenewSoon !in r.recommendations
    ensures |r.recommendations| == (if depth == Comprehensive then 2 else 1)
  {
    var days := 90;
    var renewal := if days < 30 then [RenewSoon] else [];
    var advice := if depth == Comprehensive then [FollowsBestPractices, CertificateTransparency] else [AppearsSecure];
    SslReport("A", 95, days, renewal + advice, depth)
  }

  // ---------------------------------------------------------------------------
  // Vulnerability checks (performVulnerabilityChecks)

  /** The four `Math.random() > threshold` verdicts of a scan; the basic depth reads only `csrf`. */
  datatype VulnerabilityDraws = VulnerabilityDraws(
    csrf: bool, brokenAuthentication: bool, sensitiveDataExposure: bool, securityMisconfiguration: bool)

  datatype Check = Check(name: string, vulnerable: bool, risk: Level)

  function Checks(depth: Depth, draws: VulnerabilityDraws): (cs: seq<Check>)
    ensures |cs| == (if depth == Basic then 4 else 8)
  {
    if depth == Basic then CoreChecks(draws) else CoreChecks(draws) + AdvancedChecks(draws)
  }

  /** The four checks of every scan; only CSRF depends on a random verdict. */
  function CoreChecks(draws: VulnerabilityDraws): (cs: seq<Check>)
    ensures |cs| == 4
  {
    [ Check("sqlInjection", false, Low),
      Check("xss", false, Low),
      Check("csrf", draws.csrf, Medium),
      Check("directoryTraversal", false, Low)]
  }

  /** The four further checks of a comprehensive scan. */
  function AdvancedChecks(draws: VulnerabilityDraws): (cs: seq<Check>)
    ensures |cs| == 4
  {
    [ Check("brokenAuthentication", draws.brokenAuthentication, High),
      Check("sensitiveDataExposure", draws.sensitiveDataExposure, Medium),
      Check("securityMisconfiguration", draws.securityMisconfiguration, Medium),
      Check("insecureDeserialization", false, Low)]
  }

  datatype VulnSummary = VulnSummary(totalTests: nat, vulnerabilities: nat, score: int, depth: Depth)

  datatype VulnReport = VulnReport(checks: seq<Check>, summary: VulnSummary)

  function Flags(cs: seq<Check>): (bs: seq<bool>)
    ensures |bs| == |cs| && forall k :: 0 <= k < |cs| ==> bs[k] == cs[k].vulnerable
  {
    seq(|cs|, k requires 0 <= k < |cs| => cs[k].vulnerable)
  }

  /**
   * The vulnerability section: 4 tests at basic depth, 8 at comprehensive. A
   * basic scan finds a vulnerability only through the CSRF verdict; a
   * comprehensive one counts the four random verdicts. The score is the
   * rounded pass rate, between 0 and 100, and 100 exactly when nothing was found.
   */
  function VulnerabilityScan(depth: Depth, draws: VulnerabilityDraws): (r: VulnReport)
    ensures r.summary.totalTests == |r.checks| == (if depth == Basic then 4 else 8)
    ensures r.summary.vulnerabilities <= r.summary.totalTests
    ensures depth == Basic ==> r.summary.vulnerabilities == B2I(draws.csrf)
    ensures depth == Comprehensive ==>
      r.summary.vulnerabilities ==
        B2I(draws.csrf) + B2I(draws.brokenAuthentication) + B2I(draws.sensitiveDataExposure) +
        B2I(draws.securityMisconfiguration)
    ensures 0 <= r.summary.score <= 100
    ensures r.summary.score == 100 <==> r.summary.vulnerabilities == 0
    ensures r.summary.score ==
      Round((100 * (r.summary.totalTests - r.summary.vulnerabilities)) as real / r.summary.totalTests as real)
    ensures r.summary.depth == depth
  {
    var cs := Checks(depth, draws);
    var total := |cs|;
    var vulnerable := CountTrue(Flags(cs));
    CountFlags(depth, draws);
    VulnReport(cs, VulnSummary(total, vulnerable, Percentage(total - vulnerable, total), depth))
  }

  /** The number of vulnerable checks is the number of positive random verdicts the depth consults. */
  lemma CountFlags(depth: Depth, draws: VulnerabilityDraws)
    ensures CountTrue(Flags(Checks(depth, draws))) ==
      if depth == Basic then B2I(draws.csrf)
      else B2I(draws.csrf) + B2I(draws.brokenAuthentication) + B2I(draws.sensitiveDataExposure) +
           B2I(draws.securityMisconfiguration)
  {
    var first := [false, false, draws.csrf, false];
    FlagsOfCore(draws);
    CountFour(false, false, draws.csrf, false);
    if depth == Comprehensive {
      var second := [draws.brokenAuthentication, draws.sensitiveDataExposure, draws.securityMisconfiguration, false];
      FlagsOfAdvanced(draws);
      CountFour(draws.brokenAuthentication, draws.sensitiveDataExposure, draws.securityMisconfiguration, false);
      FlagsConcat(CoreChecks(draws), AdvancedChecks(draws));
      CountTrueConcat(first, second);
    }
  }

  lemma FlagsOfCore(draws: VulnerabilityDraws)
    ensures Flags(CoreChecks(draws)) == [false, false, draws.csrf, false]
  {
    var core := CoreChecks(draws);
    assert core[0].vulnerable == false && core[1].vulnerable == false;
    assert core[2].vulnerable == draws.csrf && core[3].vulnerable == false;
  }

  lemma FlagsOfAdvanced(draws: VulnerabilityDraws)
    ensures Flags(AdvancedChecks(draws)) ==
      [draws.brokenAuthentication, draws.sensitiveDataExposure, draws.securityMisconfiguration, false]
  {
    var advanced := AdvancedChecks(draws);
    assert advanced[0].vulnerable == draws.brokenAuthentication;
    assert advanced[1].vulnerable == draws.sensitiveDataExposure;
    assert advanced[2].vulnerable == draws.securityMisconfiguration;
    assert advanced[3].vulnerable == false;
  }

  lemma FlagsConcat(a: seq<Check>, b: seq<Check>)
    ensures Flags(a + b) == Flags(a) + Flags(b)
  {
  }

  // ---------------------------------------------------------------------------
  // Assessment (calculateSecurityAssessment)

  /** The sections of `scanResults`; an absent section has no `score`/`summary`. */
  datatype ScanResults = ScanResults(
    scanType: Json.Value,
    headers: Option<HeaderAnalysis>,
    ssl: Option<SslReport>,
    vulnerabilities: Option<VulnReport>,
    hasAdvancedChecks: bool)

  /**
   * The scan pipeline of the handler: all three sections are always run, the
   * SSL one only for an `https:` target, and the advanced and compliance
   * checks only when the scan type is exactly 'full'.
   */
  function Scan(scanType: Json.Value, isHttps: bool, fetched: Result<map<string, string>, string>,
                draws: VulnerabilityDraws): (r: ScanResults)
    ensures r.headers.Some? && r.vulnerabilities.Some?
    ensures r.ssl.Some? <==> isHttps
    ensures r.hasAdvancedChecks <==> scanType == Json.Str("full")
    ensures r.headers.value.depth == r.vulnerabilities.value.summary.depth == ScanConfiguration(scanType).headerDepth
  {
    var config := ScanConfiguration(scanType);
    ScanResults(
      scanType,
      if config.includeHeaders then Some(AnalyzeHeaders(fetched, config.headerDepth)) else None,
      if config.includeSsl && isHttps then Some(SslAnalysis(config.sslDepth)) else None,
      if config.includeVulnerabilities then Some(VulnerabilityScan(config.vulnerabilityDepth, draws)) else None,
      scanType == Json.Str("full"))
  }

  datatype Finding =
    | HeaderFinding(severity: Level)
    | SslFinding
    | VulnerabilityFinding(severity: Level, count: nat)

  datatype SecurityAdvice =
    | RunFullAudit
    | BasicPostureAdequate
    | AutomateScanning
    | PenetrationTesting
    | PostureStrong
    | AddressFindings
    | SecurityTraining
  {
    /** The position of the `push` that emits this line in `calculateSecurityAssessment`. */
    function Order(): nat {
      match this
      case RunFullAudit => 0
      case BasicPostureAdequate => 1
      case AutomateScanning => 2
      case PenetrationTesting => 3
      case PostureStrong => 4
      case AddressFindings => 5
      case SecurityTraining => 6
    }
  }

  datatype Assessment = Assessment(score: int, risk: Level, findings: seq<Finding>, recommendations: seq<SecurityAdvice>)

  /** Header finding: High below 50, Medium below 80, none from 80 on. */
  function HeaderFindings(score: Option<int>): (fs: seq<Finding>)
    ensures |fs| <= 1
    ensures fs == [HeaderFinding(High)] <==> score.Some? && score.value < 50
    ensures fs == [HeaderFinding(Medium)] <==> score.Some? && 50 <= score.value < 80
    ensures fs == [] <==> score.None? || score.value >= 80
  {
    match score
    case None => []
    case Some(s) => if s < 50 then [HeaderFinding(High)] else if s < 80 then [HeaderFinding(Medium)] else []
  }

  function SslFindings(score: Option<int>): (fs: seq<Finding>)
    ensures fs == [SslFinding] <==> score.Some? && score.value < 70
    ensures fs == [] <==> score.None? || score.value >= 70
  {
    if score.Some? && score.value < 70 then [SslFinding] else []
  }

  /** Vulnerability finding: present exactly when something was found, High above two. */
  function VulnerabilityFindings(summary: Option<VulnSummary>): (fs: seq<Finding>)
    ensures |fs| <= 1
    ensures |fs| == 1 <==> summary.Some? && summary.value.vulnerabilities > 0
    ensures |fs| == 1 ==> fs[0] == VulnerabilityFinding(
      if summary.value.vulnerabilities > 2 then High else Medium, summary.value.vulnerabilities)
  {
    match summary
    case None => []
    case Some(s) =>
      if s.vulnerabilities > 0
      then [VulnerabilityFinding(if s.vulnerabilities > 2 then High else Medium, s.vulnerabilities)]
      else []
  }

  /** The sub-scores that are present, in the order they are added up. */
  function Contributions(headerScore: Option<int>, sslScore: Option<int>, vulnerabilityScore: Option<int>): seq<int> {
    (if headerScore.Some? then [headerScore.value] else []) +
    (if sslScore.Some? then [sslScore.value] else []) +
    (if vulnerabilityScore.Some? then [vulnerabilityScore.value] else [])
  }

  /** The rounded mean of the present sub-scores, 85 when there are none. */
  function OverallScore(scores: seq<int>): (s: int)
    ensures |scores| == 0 ==> s == 85
    ensures |scores| > 0 ==> MinOf(scores) <= s <= MaxOf(scores)
    ensures |scores| > 0 ==> s == Round(Sum(scores) as real / |scores| as real)
  {
    if |scores| == 0 then 85
    else RoundedMeanWithin(scores); RoundedMean(scores)
  }

  /** Risk: High below 60, Medium below 80, Low from 80 on. */
  function RiskOf(score: int): (l: Level)
    ensures l == High <==> score < 60
    ensures l == Medium <==> 60 <= score < 80
    ensures l == Low <==> score >= 80
  {
    if score < 60 then High else if score < 80 then Medium else Low
  }

  /** A higher score never carries a higher risk. */
  lemma RiskMonotone(a: int, b: int)
    requires a <= b
    ensures RiskOf(b).Rank() <= RiskOf(a).Rank()
  {
  }

  /**
   * The closing recommendations: quick scans suggest a full audit and other
   * scans automated scanning and penetration testing; the "posture is fine"
   * line of the scan type appears exactly when there is nothing to address,
   * and the "address findings" and training lines exactly when there is. The
   * lines come in the order they are pushed, each at most once.
   */
  function Recommendations(scanType: Json.Value, hasFindings: bool): (recs: seq<SecurityAdvice>)
    ensures |recs| == (if scanType == Json.Str("quick") then 2 else 3) + (if hasFindings then 1 else 0)
    ensures AddressFindings in recs <==> hasFindings
    ensures BasicPostureAdequate in recs <==> scanType == Json.Str("quick") && !hasFindings
    ensures PostureStrong in recs <==> scanType != Json.Str("quick") && !hasFindings
    ensures RunFullAudit in recs <==> scanType == Json.Str("quick")
    ensures AutomateScanning in recs <==> scanType != Json.Str("quick")
    ensures PenetrationTesting in recs <==> scanType != Json.Str("quick")
    ensures SecurityTraining in recs <==> hasFindings
    ensures forall i, j :: 0 <= i < j < |recs| ==> recs[i].Order() < recs[j].Order()
  {
    var base :=
      if scanType == Json.Str("quick") then [RunFullAudit] + (if hasFindings then [] else [BasicPostureAdequate])
      else [AutomateScanning, PenetrationTesting] + (if hasFindings then [] else [PostureStrong]);
    base + (if hasFindings then [AddressFindings, SecurityTraining] else [])
  }

  /**
   * `calculateSecurityAssessment`. The score is the rounded mean of the
   * present sub-scores (85 with none) and lies between the smallest and the
   * largest of them; the risk follows the 60/80 thresholds. Quick scans get 2
   * recommendations without findings and 3 with; other scans 3 and 4. The
   * "posture is fine" line and the "address findings" line never appear together.
   */
  function Assess(headerScore: Option<int>, sslScore: Option<int>, vulnerabilities: Option<VulnSummary>,
                  scanType: Json.Value): (a: Assessment)
    ensures var cs := Contributions(headerScore, sslScore,
                                    if vulnerabilities.Some? then Some(vulnerabilities.value.score) else None);
      && (|cs| == 0 ==> a.score == 85)
      && (|cs| > 0 ==> MinOf(cs) <= a.score <= MaxOf(cs))
      && (|cs| > 0 ==> a.score == Round(Sum(cs) as real / |cs| as real))
    ensures a.risk == RiskOf(a.score)
    ensures a.findings == HeaderFindings(headerScore) + SslFindings(sslScore) + VulnerabilityFindings(vulnerabilities)
    ensures |a.recommendations| ==
      (if scanType == Json.Str("quick") then 2 else 3) + (if |a.findings| > 0 then 1 else 0)
    ensures !(BasicPostureAdequate in a.recommendations && AddressFindings in a.recommendations)
    ensures !(PostureStrong in a.recommendations && AddressFindings in a.recommendations)
    ensures AddressFindings in a.recommendations <==> |a.findings| > 0
    ensures a.recommendations == Recommendations(scanType, |a.findings| > 0)
  {
    var findings := HeaderFindings(headerScore) + SslFindings(sslScore) + VulnerabilityFindings(vulnerabilities);
    var score := OverallScore(Contributions(headerScore, sslScore,
                                            if vulnerabilities.Some? then Some(vulnerabilities.value.score) else None));
    Assessment(score, RiskOf(score), findings, Recommendations(scanType, |findings| > 0))
  }

  /** The assessment of a finished scan: the header score always counts, even a failed fetch's 0. */
  function AssessScan(r: ScanResults): Assessment {
    Assess(if r.headers.Some? then Some(r.headers.value.Score()) else None,
           if r.ssl.Some? then Some(r.ssl.value.score) else None,
           if r.vulnerabilities.Some? then Some(r.vulnerabilities.value.summary) else None,
           r.scanType)
  }

  /**
   * A failed header fetch is scored 0, not skipped: it yields a High header
   * finding and drags the overall score to at most 65, so the scan is never
   * rated Low risk, and is High risk for a plain-http target.
   */
  lemma HeaderFetchFailureRaisesRisk(scanType: Json.Value, isHttps: bool, details: string, draws: VulnerabilityDraws)
    ensures var a := AssessScan(Scan(scanType, isHttps, Err(details), draws));
      && HeaderFinding(High) in a.findings
      && a.score <= 65
      && a.risk != Low
      && (!isHttps ==> a.risk == High)
  {
    var r := Scan(scanType, isHttps, Err(details), draws);
    assert r.headers.value.Score() == 0;
    var ssl := if r.ssl.Some? then Some(r.ssl.value.score) else None;
    assert ssl == if isHttps then Some(95) else None;
    ZeroHeaderScoreAssessment(ssl, r.vulnerabilities.value.summary, scanType);
  }

  /** With a header score of 0, an SSL score of 95 or none, and a percentage vulnerability score. */
  lemma ZeroHeaderScoreAssessment(ssl: Option<int>, summary: VulnSummary, scanType: Json.Value)
    requires ssl == None || ssl == Some(95)
    requires 0 <= summary.score <= 100
    ensures var a := Assess(Some(0), ssl, Some(summary), scanType);
      && HeaderFinding(High) in a.findings
      && a.score <= 65
      && a.risk != Low
      && (ssl.None? ==> a.risk == High)
  {
    var v := summary.score;
    var cs := Contributions(Some(0), ssl, Some(v));
    var a := Assess(Some(0), ssl, Some(summary), scanType);
    assert a.findings[0] == HeaderFinding(High);
    if ssl.Some? {
      assert cs == [0, 95, v];
      SumThree(0, 95, v);
      DivBelow(2 * Sum(cs) + 3, 6, 66);
    } else {
      assert cs == [0, v];
      SumTwo(0, v);
      DivBelow(2 * Sum(cs) + 2, 4, 51);
    }
  }

  /** Over a successful scan every sub-score is a percentage, so the overall score is one too. */
  lemma ScanScoreIsPercentage(scanType: Json.Value, isHttps: bool, fetched: Result<map<string, string>, string>,
                              draws: VulnerabilityDraws)
    ensures 0 <= AssessScan(Scan(scanType, isHttps, fetched, draws)).score <= 100
  {
    var r := Scan(scanType, isHttps, fetched, draws);
    var h := r.headers.value;
    assert 0 <= h.Score() <= 100;
    var ssl := if r.ssl.Some? then Some(r.ssl.value.score) else None;
    PercentagesAverageToPercentage(h.Score(), ssl, r.vulnerabilities.value.summary, scanType);
  }

  /** The overall score of percentage sub-scores is a percentage. */
  lemma PercentagesAverageToPercentage(header: int, ssl: Option<int>, summary: VulnSummary, scanType: Json.Value)
    requires 0 <= header <= 100 && 0 <= summary.score <= 100
    requires ssl.Some? ==> 0 <= ssl.value <= 100
    ensures 0 <= Assess(Some(header), ssl, Some(summary), scanType).score <= 100
  {
    var cs := Contributions(Some(header), ssl, Some(summary.score));
    assert forall k :: 0 <= k < |cs| ==> 0 <= cs[k] <= 100;
    MinMaxBounds(cs);
  }

  // ---------------------------------------------------------------------------
  // The request handler

  /**
   * The JSON body. `None` is a field that is absent (`undefined`); a `null`
   * target is falsy like an absent one and is `None` too, while a `null` scan
   * type is kept as `Some(Null)`, since only `undefined` takes the default.
   */
  datatype ScanRequest = ScanRequest(targetUrl: Option<string>, scanType: Option<Json.Value>)

  datatype ScanError = TargetUrlRequired | InvalidUrlFormat {
    function Message(): string {
      match this
      case TargetUrlRequired => "Target URL is required"
      case InvalidUrlFormat => "Invalid URL format"
    }
  }

  datatype ScanReport = ScanReport(targetUrl: string, results: ScanResults, assessment: Assessment)

  /**
   * `POST /api/security-scan`, given `new URL(...)` as the validity predicate
   * `validUrl`, the protocol test `isHttps`, the header fetch and the random
   * draws. A missing target is reported before the URL is parsed; the scan
   * type defaults to 'full' only when it is absent. The response carries the
   * scan of the target and the assessment of exactly that scan.
   */
  function RunSecurityScan(req: ScanRequest, validUrl: string -> bool, isHttps: string -> bool,
                           fetched: Result<map<string, string>, string>,
                           draws: VulnerabilityDraws): (r: Result<ScanReport, ScanError>)
    ensures Missing(req.targetUrl) <==> r == Err(TargetUrlRequired)
    ensures r == Err(InvalidUrlFormat) <==> !Missing(req.targetUrl) && !validUrl(req.targetUrl.value)
    ensures r.Ok? ==> var rep := r.value;
      && rep.targetUrl == req.targetUrl.value
      && rep.results.scanType == req.scanType.GetOr(Json.Str("full"))
      && (rep.results.hasAdvancedChecks <==> req.scanType.None? || req.scanType == Some(Json.Str("full")))
      && (rep.results.ssl.Some? <==> isHttps(rep.targetUrl))
      && 0 <= rep.assessment.score <= 100
    ensures r.Ok? ==> var rep := r.value;
      && rep.results == Scan(rep.results.scanType, isHttps(rep.targetUrl), fetched, draws)
      && rep.assessment == AssessScan(rep.results)
  {
    if Missing(req.targetUrl) then Err(TargetUrlRequired)
    else if !validUrl(req.targetUrl.value) then Err(InvalidUrlFormat)
    else
      var url := req.targetUrl.value;
      var scanType := req.scanType.GetOr(Json.Str("full"));
      var results := Scan(scanType, isHttps(url), fetched, draws);
      ScanScoreIsPercentage(scanType, isHttps(url), fetched, draws);
      Ok(ScanReport(url, results, AssessScan(results)))
  }
}

=== FILE: sorting.dfy ===
/** Ascending numeric sort, `[...xs].sort((a, b) => a - b)`, as a functional insertion sort. */
module Sorting {

  predicate Sorted(s: seq<int>) {
    forall i, j :: 0 <= i < j < |s| ==> s[i] <= s[j]
  }

  /** Inserts `x` into a sorted sequence, keeping it sorted. */
  function Insert(x: int, s: seq<int>): (r: seq<int>)
    requires Sorted(s)
    ensures Sorted(r)
    ensures multiset(r) == multiset(s) + multiset{x}
    ensures |r| == |s| + 1
    ensures r[0] == x || (|s| > 0 && r[0] == s[0])
  {
    if |s| == 0 then [x]
    else if x <= s[0] then [x] + s
    else
      assert s == [s[0]] + s[1..];
      assert Sorted(s[1..]) by {
        forall i, j | 0 <= i < j < |s| - 1
          ensures s[1..][i] <= s[1..][j]
        {
          assert s[1..][i] == s[i + 1] && s[1..][j] == s[j + 1];
        }
      }
      var tail := Insert(x, s[1..]);
      SortedCons(s[0], tail);
      assert multiset([s[0]] + tail) == multiset{s[0]} + multiset(tail);
      [s[0]] + tail
  }

  /** Putting an element no larger than the head in front of a sorted sequence keeps it sorted. */
  lemma SortedCons(x: int, t: seq<int>)
    requires Sorted(t) && (|t| > 0 ==> x <= t[0])
    ensures Sorted([x] + t)
  {
    var r := [x] + t;
    forall i, j | 0 <= i < j < |r|
      ensures r[i] <= r[j]
    {
      if i > 0 {
        assert r[i] == t[i - 1] && r[j] == t[j - 1];
      } else {
        assert r[j] == t[j - 1] && t[0] <= t[j - 1];
      }
    }
  }

  /** The ascending rearrangement of `s`. */
  function Sort(s: seq<int>): (r: seq<int>)
    ensures Sorted(r)
    ensures multiset(r) == multiset(s)
    ensures |r| == |s|
  {
    if |s| == 0 then []
    else
      assert s == s[..|s| - 1] + [s[|s| - 1]];
      Insert(s[|s| - 1], Sort(s[..|s| - 1]))
  }

  lemma SortedAt(s: seq<int>, i: int, j: int)
    requires Sorted(s) && 0 <= i <= j < |s|
    ensures s[i] <= s[j]
  {
  }

  /** Every element of the sorted copy is an element of the input. */
  lemma SortedElementsFromInput(s: seq<int>, k: int)
    requires 0 <= k < |s|
    ensures Sort(s)[k] in s
  {
    var r := Sort(s);
    assert r[k] in multiset(r);
  }
}

=== FILE: tech_search.dfy ===
/**
 * The technology filter of the skills page: a fixed list of technologies,
 * narrowed by a case-insensitive substring search on the name and by a
 * category, where the category 'All' keeps every category.
 */
module TechSearch {
  import opened Common
  import opened JsStrings

  datatype Technology = Technology(name: string, category: string)

  /** The listed technologies, in display order. */
  const Technologies: seq<Technology> := [
    Technology("Playwright", "Testing"),
    Technology("Selenium WebDriver", "Testing"),
    Technology("Jest", "Testing"),
    Technology("Karate DSL", "Testing"),
    Technology("k6 Performance Testing", "Performance"),
    Technology("Burp Suite", "Security"),
    Technology("JavaScript", "Languages"),
    Technology("TypeScript", "Languages"),
    Technology("Java", "Languages"),
    Technology("GitHub Actions", "CI/CD"),
    Technology("Jenkins", "CI/CD"),
    Technology("Docker", "DevOps"),
    Technology("Kubernetes", "DevOps"),
    Technology("AWS", "Cloud"),
    Technology("MongoDB", "Database"),
    Technology("SQL", "Database"),
    Technology("REST APIs", "API"),
    Technology("Postman", "API"),
    Technology("JIRA", "Tools"),
    Technology("TestRail", "Tools"),
    Technology("BrowserStack", "Testing"),
    Technology("Linux", "OS"),
    Technology("Wireshark", "Networking"),
    Technology("TCP/IP", "Networking")
  ]

  /** The category pills, 'All' first. */
  const Categories: seq<string> := [
    "All", "Testing", "Languages", "CI/CD", "DevOps", "Cloud", "Database",
    "API", "Tools", "Performance", "Security", "OS", "Networking"
  ]

  /** The search and category criteria of the filter. */
  predicate MatchesSearch(t: Technology, term: string) {
    Contains(Lower(t.name), Lower(term))
  }

  predicate MatchesCategory(t: Technology, category: string) {
    category == "All" || t.category == category
  }

  predicate Matches(t: Technology, term: string, category: string) {
    MatchesSearch(t, term) && MatchesCategory(t, category)
  }

  /**
   * `technologies.filter(...)`: exactly the technologies meeting both
   * criteria, in their original order.
   */
  function Filter(ts: seq<Technology>, term: string, category: string): (r: seq<Technology>)
    ensures |r| <= |ts|
    ensures IsSubsequence(r, ts)
    ensures forall k :: 0 <= k < |r| ==> r[k] in ts
    ensures forall k :: 0 <= k < |r| ==> Matches(r[k], term, category)
    ensures forall k :: 0 <= k < |ts| && Matches(ts[k], term, category) ==> ts[k] in r
  {
    if |ts| == 0 then []
    else
      var rest := Filter(ts[1..], term, category);
      assert forall k :: 1 <= k < |ts| ==> ts[k] == ts[1..][k - 1];
      if Matches(ts[0], term, category) then
        assert ([ts[0]] + rest)[1..] == rest;
        [ts[0]] + rest
      else rest
  }

  /** No technology is shown exactly when none meets the criteria; this is when the empty-state block appears. */
  lemma EmptyStateIffNoMatch(ts: seq<Technology>, term: string, category: string)
    ensures |Filter(ts, term, category)| == 0 <==> forall k :: 0 <= k < |ts| ==> !Matches(ts[k], term, category)
  {
    var r := Filter(ts, term, category);
    if |r| > 0 {
      var k :| 0 <= k < |ts| && ts[k] == r[0];
    }
  }

  /** The initial state, an empty search with 'All', shows all 24 technologies. */
  lemma {:induction false} EmptySearchKeepsAll(ts: seq<Technology>)
    ensures Filter(ts, "", "All") == ts
  {
    if |ts| > 0 {
      EmptySearchKeepsAll(ts[1..]);
      ContainsEmpty(Lower(ts[0].name));
      assert [ts[0]] + ts[1..] == ts;
    }
  }

  lemma InitialViewShowsEverything()
    ensures |Filter(Technologies, "", "All")| == |Technologies| == 24
  {
    EmptySearchKeepsAll(Technologies);
  }

  /** The result depends on the search term only through its lower-cased form. */
  lemma {:induction false} FilterDependsOnLowerCase(ts: seq<Technology>, a: string, b: string, category: string)
    requires Lower(a) == Lower(b)
    ensures Filter(ts, a, category) == Filter(ts, b, category)
  {
    if |ts| > 0 {
      FilterDependsOnLowerCase(ts[1..], a, b, category);
    }
  }

  /** Upper-casing or lower-casing the search term does not change the result. */
  lemma SearchIsCaseInsensitive(term: string, category: string)
    ensures Filter(Technologies, Upper(term), category) == Filter(Technologies, term, category)
    ensures Filter(Technologies, Lower(term), category) == Filter(Technologies, term, category)
  {
    LowerOfUpper(term);
    LowerIdempotent(term);
    FilterDependsOnLowerCase(Technologies, Upper(term), term, category);
    FilterDependsOnLowerCase(Technologies, Lower(term), term, category);
  }

  /** A technology matching a longer search term also matches its prefix. */
  lemma MatchesPrefix(t: Technology, term: string, ext: string, category: string)
    requires Matches(t, term + ext, category)
    ensures Matches(t, term, category)
  {
    LowerConcat(term, ext);
    ContainsPrefixOf(Lower(t.name), Lower(term), Lower(ext));
  }

  /** Typing more characters can only narrow the result: the new list is a subsequence of the old. */
  lemma {:induction false} ExtendingTermNarrows(ts: seq<Technology>, term: string, ext: string, category: string)
    ensures IsSubsequence(Filter(ts, term + ext, category), Filter(ts, term, category))
  {
    if |ts| > 0 {
      ExtendingTermNarrows(ts[1..], term, ext, category);
      var longer := Filter(ts[1..], term + ext, category);
      var shorter := Filter(ts[1..], term, category);
      if Matches(ts[0], term + ext, category) {
        MatchesPrefix(ts[0], term, ext, category);
        assert ([ts[0]] + longer)[1..] == longer;
        assert ([ts[0]] + shorter)[1..] == shorter;
      } else if Matches(ts[0], term, category) {
        SubsequenceOfTail(longer, shorter, ts[0]);
      }
    }
  }

  /** Selecting a category shows a subsequence of what 'All' shows for the same term. */
  lemma {:induction false} CategoryNarrows(ts: seq<Technology>, term: string, category: string)
    ensures IsSubsequence(Filter(ts, term, category), Filter(ts, term, "All"))
  {
    if |ts| > 0 {
      CategoryNarrows(ts[1..], term, category);
      var narrow := Filter(ts[1..], term, category);
      var all := Filter(ts[1..], term, "All");
      if Matches(ts[0], term, category) {
        assert ([ts[0]] + narrow)[1..] == narrow;
        assert ([ts[0]] + all)[1..] == all;
      } else if Matches(ts[0], term, "All") {
        SubsequenceOfTail(narrow, all, ts[0]);
      }
    }
  }
}

=== FILE: test_api.dfy ===
/**
 * `POST /api/test-api`: validates a request description, builds the options
 * of the outgoing `fetch`, and either analyses the response (status class,
 * speed rating, security headers, recommendations) or classifies the error
 * and suggests troubleshooting steps.
 *
 * The `fetch` itself is an input: the response it produced together with the
 * measured response time, or the error it threw. Response header names are
 * taken to be lower case, as the Fetch `Headers` object presents them.
 */
module ApiTest {
  import opened Common
  import opened JsStrings
  import opened JsNumbers
  import Json

  // ---------------------------------------------------------------------------
  // Request options

  /** How a request body travels: a string verbatim, anything else through `JSON.stringify`. */
  datatype Payload = Text(text: string) | Serialized(value: Json.Value)

  datatype RequestOptions = RequestOptions(httpMethod: string, headers: map<string, string>, body: Option<Payload>)

  const DefaultHeaders: map<string, string> :=
    map["Content-Type" := "application/json", "User-Agent" := "SDET-Portfolio-API-Tester/1.0"]

  /** The methods for which a body is attached. */
  predicate SendsBody(httpMethod: string) {
    var m := Upper(httpMethod);
    m == "POST" || m == "PUT" || m == "PATCH"
  }

  function EncodeBody(v: Json.Value): Payload {
    if v.Str? then Text(v.s) else Serialized(v)
  }

  /**
   * The options passed to `fetch`: the upper-cased method; the two default
   * headers overridden key by key by the caller's; and the body, only for
   * POST, PUT and PATCH and only when it is truthy.
   */
  function PrepareRequest(httpMethod: string, headers: map<string, string>, body: Option<Json.Value>): (o: RequestOptions)
    ensures o.httpMethod == Upper(httpMethod)
    ensures o.headers.Keys == DefaultHeaders.Keys + headers.Keys
    ensures forall k :: k in headers ==> o.headers[k] == headers[k]
    ensures forall k :: k in DefaultHeaders && k !in headers ==> o.headers[k] == DefaultHeaders[k]
    ensures o.body.Some? <==> SendsBody(httpMethod) && body.Some? && Json.Truthy(body.value)
    ensures o.body.Some? && body.value.Str? ==> o.body.value == Text(body.value.s)
    ensures o.body != Some(Text(""))
  {
    RequestOptions(
      Upper(httpMethod),
      DefaultHeaders + headers,
      if SendsBody(httpMethod) && body.Some? && Json.Truthy(body.value) then Some(EncodeBody(body.value)) else None)
  }

  /** The method is matched without regard to the case of its ASCII letters. */
  lemma SendsBodyCaseInsensitive(httpMethod: string)
    ensures SendsBody(Upper(httpMethod)) == SendsBody(httpMethod)
  {
    assert Upper(Upper(httpMethod)) == Upper(httpMethod);
  }

  // ---------------------------------------------------------------------------
  // Status and speed

  datatype StatusCategory = Success | Redirect | ClientError | ServerError | UnknownStatus {
    function Label(): string {
      match this
      case Success => "Success"
      case Redirect => "Redirect"
      case ClientError => "Client Error"
      case ServerError => "Server Error"
      case UnknownStatus => "Unknown"
    }

    function Color(): string {
      match this
      case Success => "green"
      case Redirect => "yellow"
      case ClientError => "red"
      case ServerError => "red"
      case UnknownStatus => "gray"
    }
  }

  /** The status classes partition the integers: 2xx, 3xx, 4xx, 500 and above, and below 200. */
  function StatusAnalysis(status: int): (c: StatusCategory)
    ensures c == Success <==> 200 <= status < 300
    ensures c == Redirect <==> 300 <= status < 400
    ensures c == ClientError <==> 400 <= status < 500
    ensures c == ServerError <==> 500 <= status
    ensures c == UnknownStatus <==> status < 200
  {
    if 200 <= status < 300 then Success
    else if 300 <= status < 400 then Redirect
    else if 400 <= status < 500 then ClientError
    else if status >= 500 then ServerError
    else UnknownStatus
  }

  /** A status is shown red exactly when it is one the recommendations call a failed request. */
  lemma RedMarksFailedRequests(status: int)
    ensures StatusAnalysis(status).Color() == "red" <==> status >= 400
  {
  }

  datatype Speed = Excellent | Good | Fair | Poor | Critical {
    /** Position on the scale, from fastest (0) to slowest (4). */
    function Rank(): nat {
      match this
      case Excellent => 0
      case Good => 1
      case Fair => 2
      case Poor => 3
      case Critical => 4
    }

    function Color(): string {
      match this
      case Excellent => "green"
      case Good => "green"
      case Fair => "yellow"
      case Poor => "orange"
      case Critical => "red"
    }
  }

  /** The speed rating of a response time in milliseconds. */
  function PerformanceAnalysis(ms: int): (p: Speed)
    ensures p == Excellent <==> ms < 200
    ensures p == Critical <==> ms >= 2000
  {
    if ms < 200 then Excellent
    else if ms < 500 then Good
    else if ms < 1000 then Fair
    else if ms < 2000 then Poor
    else Critical
  }

  /** The rating counts how many of the thresholds 200, 500, 1000 and 2000 ms the response time reaches. */
  lemma PerformanceRankCountsThresholds(ms: int)
    ensures PerformanceAnalysis(ms).Rank() == CountTrue([ms >= 200, ms >= 500, ms >= 1000, ms >= 2000])
  {
    CountFour(ms >= 200, ms >= 500, ms >= 1000, ms >= 2000);
  }

  /** A slower response never gets a better rating. */
  lemma PerformanceMonotone(a: int, b: int)
    requires a <= b
    ensures PerformanceAnalysis(a).Rank() <= PerformanceAnalysis(b).Rank()
  {
    PerformanceRankCountsThresholds(a);
    PerformanceRankCountsThresholds(b);
  }

  // ---------------------------------------------------------------------------
  // Security headers

  datatype SecurityHeader = SecurityHeader(header: string, name: string)

  /** The checked headers, in order, with the names reported for them. */
  const SecurityHeaders: seq<SecurityHeader> := [
    SecurityHeader("content-security-policy", "CSP"),
    SecurityHeader("x-frame-options", "X-Frame-Options"),
    SecurityHeader("x-content-type-options", "X-Content-Type-Options"),
    SecurityHeader("strict-transport-security", "HSTS"),
    SecurityHeader("x-xss-protection", "XSS Protection")
  ]

  datatype SecurityAnalysis = SecurityAnalysis(present: seq<string>, missing: seq<string>, score: int)

  predicate IsSet(headers: map<string, string>, h: SecurityHeader) {
    HeaderValue(headers, h.header).Some?
  }

  function Names(hs: seq<SecurityHeader>): (ns: seq<string>)
    ensures |ns| == |hs| && forall k :: 0 <= k < |hs| ==> ns[k] == hs[k].name
  {
    seq(|hs|, k requires 0 <= k < |hs| => hs[k].name)
  }

  predicate DistinctNames(hs: seq<SecurityHeader>) {
    forall i, j :: 0 <= i < j < |hs| ==> hs[i].name != hs[j].name
  }

  /** Splits the names of `hs` into those whose header is set and those whose header is not, each in the order of `hs`. */
  function Partition(hs: seq<SecurityHeader>, headers: map<string, string>): (r: (seq<string>, seq<string>))
    ensures |r.0| + |r.1| == |hs|
    ensures forall x :: x in r.0 ==> x in Names(hs)
    ensures forall x :: x in r.1 ==> x in Names(hs)
    ensures IsSubsequence(r.0, Names(hs)) && IsSubsequence(r.1, Names(hs))
  {
    if |hs| == 0 then ([], [])
    else
      var rest := Partition(hs[1..], headers);
      var n := hs[0].name;
      assert Names(hs) == [n] + Names(hs[1..]);
      if IsSet(headers, hs[0]) then
        assert ([n] + rest.0)[1..] == rest.0;
        SubsequenceOfTail(rest.1, Names(hs[1..]), n);
        ([n] + rest.0, rest.1)
      else
        assert ([n] + rest.1)[1..] == rest.1;
        SubsequenceOfTail(rest.0, Names(hs[1..]), n);
        (rest.0, [n] + rest.1)
  }

  /** With distinct names, a name lands among the present ones exactly when its header is set, and otherwise among the missing ones. */
  lemma {:induction false} PartitionMembers(hs: seq<SecurityHeader>, headers: map<string, string>)
    requires DistinctNames(hs)
    ensures forall j :: 0 <= j < |hs| ==>
      (hs[j].name in Partition(hs, headers).0 <==> IsSet(headers, hs[j])) &&
      (hs[j].name in Partition(hs, headers).1 <==> !IsSet(headers, hs[j]))
  {
    if |hs| > 0 {
      var tail := hs[1..];
      PartitionMembers(tail, headers);
      var rest := Partition(tail, headers);
      assert hs[0].name !in Names(tail);
      assert forall j :: 1 <= j < |hs| ==> hs[j] == tail[j - 1];
    }
  }

  /**
   * `getSecurityAnalysis`: each of the five names is reported present exactly
   * when its header has a non-empty value and missing otherwise, both lists
   * keep the order of the header table, and the score
   * is the rounded percentage present, 20 points per header.
   */
  function AnalyzeSecurity(headers: map<string, string>): (a: SecurityAnalysis)
    ensures forall j :: 0 <= j < |SecurityHeaders| ==>
      (SecurityHeaders[j].name in a.present <==> IsSet(headers, SecurityHeaders[j]))
    ensures forall j :: 0 <= j < |SecurityHeaders| ==>
      (SecurityHeaders[j].name in a.missing <==> !IsSet(headers, SecurityHeaders[j]))
    ensures |a.present| + |a.missing| == |SecurityHeaders|
    ensures IsSubsequence(a.present, Names(SecurityHeaders)) && IsSubsequence(a.missing, Names(SecurityHeaders))
    ensures a.score == 20 * |a.present| && 0 <= a.score <= 100
  {
    var r := Partition(SecurityHeaders, headers);
    PartitionMembers(SecurityHeaders, headers);
    var n := |r.0|;
    assert (200 * n + 5) / 10 == 20 * n;
    SecurityAnalysis(r.0, r.1, Percentage(n, |SecurityHeaders|))
  }

  /** "CSP" is reported missing exactly when the CSP header is unset, and present otherwise. */
  lemma CspReported(headers: map<string, string>)
    ensures var a := AnalyzeSecurity(headers);
      && ("CSP" in a.missing <==> HeaderValue(headers, "content-security-policy").None?)
      && ("CSP" in a.present <==> HeaderValue(headers, "content-security-policy").Some?)
  {
    var a := AnalyzeSecurity(headers);
    var csp := SecurityHeaders[0];
    assert csp.name == "CSP" && csp.header == "content-security-policy";
    assert csp.name in a.missing <==> !IsSet(headers, csp);
    assert csp.name in a.present <==> IsSet(headers, csp);
  }

  // ---------------------------------------------------------------------------
  // Response analysis

  datatype Response = Response(status: int, headers: map<string, string>)

  datatype ApiAdvice = OptimizePerformance | VerifyRequest | AddCsp | LooksHealthy {
    /** The position of the test that emits this line in `analyzeResponse`. */
    function Order(): nat {
      match this
      case OptimizePerformance => 0
      case VerifyRequest => 1
      case AddCsp => 2
      case LooksHealthy => 3
    }

    function Text(): string {
      match this
      case OptimizePerformance => "Response time is high (>2s) - consider optimizing API performance"
      case VerifyRequest => "Request failed - verify endpoint URL, method, and required parameters"
      case AddCsp => "Consider implementing Content Security Policy headers"
      case LooksHealthy => "API response looks healthy - good performance and status"
    }
  }

  datatype Analysis = Analysis(
    status: StatusCategory,
    performance: Speed,
    security: SecurityAnalysis,
    recommendations: seq<ApiAdvice>)

  /**
   * `analyzeResponse`: the three checks each contribute their advice, and the
   * healthy note appears, alone, exactly when none of them fired. The CSP
   * advice appears exactly when the security analysis lists CSP as missing.
   */
  function AnalyzeResponse(resp: Response, responseTime: int): (a: Analysis)
    ensures a.status == StatusAnalysis(resp.status)
    ensures a.performance == PerformanceAnalysis(responseTime)
    ensures a.security == AnalyzeSecurity(resp.headers)
    ensures 1 <= |a.recommendations| <= 3
    ensures OptimizePerformance in a.recommendations <==> responseTime > 2000
    ensures VerifyRequest in a.recommendations <==> resp.status >= 400
    ensures AddCsp in a.recommendations <==> "CSP" in a.security.missing
    ensures LooksHealthy in a.recommendations <==> a.recommendations == [LooksHealthy]
    ensures a.recommendations == [LooksHealthy] <==>
      responseTime <= 2000 && resp.status < 400 && "CSP" in a.security.present
  {
    var security := AnalyzeSecurity(resp.headers);
    CspReported(resp.headers);
    Analysis(
      StatusAnalysis(resp.status),
      PerformanceAnalysis(responseTime),
      security,
      Advise(responseTime > 2000, resp.status >= 400, "CSP" in security.missing))
  }

  /** The three advice tests in order, and the "healthy" line when none fires. */
  function Advise(slow: bool, failed: bool, noCsp: bool): (recs: seq<ApiAdvice>)
    ensures 1 <= |recs| <= 3
    ensures OptimizePerformance in recs <==> slow
    ensures VerifyRequest in recs <==> failed
    ensures AddCsp in recs <==> noCsp
    ensures LooksHealthy in recs <==> recs == [LooksHealthy]
    ensures recs == [LooksHealthy] <==> !slow && !failed && !noCsp
    ensures forall i, j :: 0 <= i < j < |recs| ==> recs[i].Order() < recs[j].Order()
  {
    var advice :=
      (if slow then [OptimizePerformance] else []) +
      (if failed then [VerifyRequest] else []) +
      (if noCsp then [AddCsp] else []);
    if |advice| == 0 then [LooksHealthy] else advice
  }
  /** Each advice line appears at most once, in the order the tests are made. */
  lemma AdviceInTestOrder(resp: Response, responseTime: int)
    ensures var recs := AnalyzeResponse(resp, responseTime).recommendations;
      forall i, j :: 0 <= i < j < |recs| ==> recs[i].Order() < recs[j].Order()
  {
  }


  /**
   * The speed scale and the slow-response advice use different boundaries:
   * a response rated Critical goes without the advice exactly at 2000 ms.
   */
  lemma CriticalWithoutSlowAdvice(resp: Response, responseTime: int)
    ensures PerformanceAnalysis(responseTime) == Critical &&
            OptimizePerformance !in AnalyzeResponse(resp, responseTime).recommendations
            <==> responseTime == 2000
  {
  }

  // ---------------------------------------------------------------------------
  // Errors

  /** The `name` and `message` of a thrown error. */
  datatype ErrorInfo = ErrorInfo(name: string, message: string)

  datatype ErrorType = Timeout | NetworkError | InvalidUrl | UnknownError {
    function Label(): string {
      match this
      case Timeout => "Timeout"
      case NetworkError => "Network Error"
      case InvalidUrl => "Invalid URL"
      case UnknownError => "Unknown Error"
    }
  }

  predicate TimedOut(e: ErrorInfo) {
    e.name == "AbortError" || Contains(e.message, "timeout")
  }

  predicate FailedToFetch(e: ErrorInfo) {
    Contains(e.message, "Failed to fetch")
  }

  predicate MentionsNetwork(e: ErrorInfo) {
    Contains(e.message, "network")
  }

  predicate MentionsInvalidUrl(e: ErrorInfo) {
    Contains(e.message, "Invalid URL")
  }

  /** `getErrorType`: the first matching class in the order timeout, network, invalid URL. */
  function ClassifyError(e: ErrorInfo): (t: ErrorType)
    ensures t == Timeout <==> TimedOut(e)
    ensures t == NetworkError <==> !TimedOut(e) && (FailedToFetch(e) || MentionsNetwork(e))
    ensures t == InvalidUrl <==> !TimedOut(e) && !FailedToFetch(e) && !MentionsNetwork(e) && MentionsInvalidUrl(e)
    ensures t == UnknownError <==> !TimedOut(e) && !FailedToFetch(e) && !MentionsNetwork(e) && !MentionsInvalidUrl(e)
  {
    if TimedOut(e) then Timeout
    else if FailedToFetch(e) || MentionsNetwork(e) then NetworkError
    else if MentionsInvalidUrl(e) then InvalidUrl
    else UnknownError
  }

  datatype Tip =
    | IncreaseTimeout | CheckServerLoad
    | CheckConnection | CheckEndpoint | CheckCors
    | IncludeProtocol | CheckUrlEncoding
    | ReadDocumentation | CheckCredentials | CheckParameters
  {
    function Text(): string {
      match this
      case IncreaseTimeout => "Request timed out - try increasing timeout or check if the API is responsive"
      case CheckServerLoad => "Verify the target server is accessible and not overloaded"
      case CheckConnection => "Network connectivity issue - check your internet connection"
      case CheckEndpoint => "Verify the API endpoint URL is correct and accessible"
      case CheckCors => "Check if CORS is properly configured on the target API"
      case IncludeProtocol => "Ensure the URL includes the protocol (http:// or https://)"
      case CheckUrlEncoding => "Verify the URL format is correct and properly encoded"
      case ReadDocumentation => "Check the API documentation for correct usage"
      case CheckCredentials => "Verify authentication credentials if required"
      case CheckParameters => "Ensure request method and parameters are correct"
    }
  }

  /** The troubleshooting tips written for each error class. */
  function TipsFor(t: ErrorType): seq<Tip> {
    match t
    case Timeout => [IncreaseTimeout, CheckServerLoad]
    case NetworkError => [CheckConnection, CheckEndpoint, CheckCors]
    case InvalidUrl => [IncludeProtocol, CheckUrlEncoding]
    case UnknownError => [ReadDocumentation, CheckCredentials, CheckParameters]
  }

  /**
   * `getTroubleshootingTips` repeats the classification except for the word
   * "network": an error classified as a network error only because its
   * message mentions "network" gets the tips of the class it would have had
   * without that word.
   */
  function TroubleshootingTips(e: ErrorInfo): (tips: seq<Tip>)
    ensures FailedToFetch(e) || !MentionsNetwork(e) || TimedOut(e) ==> tips == TipsFor(ClassifyError(e))
    ensures ClassifyError(e) == NetworkError && !FailedToFetch(e) ==>
      tips == TipsFor(if MentionsInvalidUrl(e) then InvalidUrl else UnknownError)
    ensures 2 <= |tips| <= 3
  {
    if TimedOut(e) then TipsFor(Timeout)
    else if FailedToFetch(e) then TipsFor(NetworkError)
    else if MentionsInvalidUrl(e) then TipsFor(InvalidUrl)
    else TipsFor(UnknownError)
  }

  // ---------------------------------------------------------------------------
  // The request handler

  /**
   * The JSON body. `None` is a field that is absent (`undefined`); a `null`
   * method or URL is falsy like an absent one and is `None` too, while the
   * optional test name and timeout are used as given, `null` included, since
   * only `undefined` takes the default.
   */
  datatype ApiRequest = ApiRequest(
    httpMethod: Option<string>,
    url: Option<string>,
    headers: map<string, string>,
    body: Option<Json.Value>,
    timeout: Option<Json.Value>,
    testName: Option<Json.Value>)

  /** What the `fetch` did: answered after `responseTime` milliseconds, or threw. */
  datatype FetchOutcome = Responded(response: Response, responseTime: int) | Threw(error: ErrorInfo)

  /**
   * The outcome of a successful test: the fields of the JSON response that the
   * model covers, plus `abortAfter`, the timeout the `fetch` was aborted after
   * (`AbortSignal.timeout`), which the response itself does not include.
   */
  datatype ApiReport = ApiReport(
    testName: Json.Value,
    url: string,
    abortAfter: Json.Value,
    request: RequestOptions,
    status: int,
    analysis: Analysis)

  datatype ApiFailure = ApiFailure(message: string, errorType: ErrorType, tips: seq<Tip>)

  const MissingParametersMessage: string := "Missing required parameters: method and url"
  const InvalidUrlMessage: string := "Invalid URL format"

  /** The failure payload the `catch` block builds from an error. */
  function Failure(e: ErrorInfo): ApiFailure {
    ApiFailure(e.message, ClassifyError(e), TroubleshootingTips(e))
  }

  /**
   * `POST /api/test-api`, given `new URL(...)` as the validity predicate
   * `validUrl` and the outcome of the `fetch`. Missing fields are reported
   * before the URL is parsed, both as plain `Error`s; the test name defaults
   * to 'API Test' and the timeout to 10000 ms only when absent.
   */
  function TestApi(req: ApiRequest, validUrl: string -> bool, outcome: FetchOutcome): (r: Result<ApiReport, ApiFailure>)
    ensures Missing(req.httpMethod) || Missing(req.url) ==>
      r == Err(Failure(ErrorInfo("Error", MissingParametersMessage)))
    ensures !Missing(req.httpMethod) && !Missing(req.url) && !validUrl(req.url.value) ==>
      r == Err(Failure(ErrorInfo("Error", InvalidUrlMessage)))
    ensures r.Ok? <==> !Missing(req.httpMethod) && !Missing(req.url) && validUrl(req.url.value) && outcome.Responded?
    ensures !Missing(req.httpMethod) && !Missing(req.url) && validUrl(req.url.value) && outcome.Threw? ==>
      r == Err(Failure(outcome.error))
    ensures r.Ok? ==> var rep := r.value;
      && rep.testName == req.testName.GetOr(Json.Str("API Test"))
      && rep.abortAfter == req.timeout.GetOr(Json.Num(10000.0))
      && rep.url == req.url.value
      && rep.request == PrepareRequest(req.httpMethod.value, req.headers, req.body)
      && rep.request.httpMethod == Upper(req.httpMethod.value)
      && rep.status == outcome.response.status
      && rep.analysis == AnalyzeResponse(outcome.response, outcome.responseTime)
  {
    if Missing(req.httpMethod) || Missing(req.url) then Err(Failure(ErrorInfo("Error", MissingParametersMessage)))
    else if !validUrl(req.url.value) then Err(Failure(ErrorInfo("Error", InvalidUrlMessage)))
    else match outcome
      case Threw(e) => Err(Failure(e))
      case Responded(resp, ms) =>
        Ok(ApiReport(
          req.testName.GetOr(Json.Str("API Test")),
          req.url.value,
          req.timeout.GetOr(Json.Num(10000.0)),
          PrepareRequest(req.httpMethod.value, req.headers, req.body),
          resp.status,
          AnalyzeResponse(resp, ms)))
  }

  /**
   * The validation errors pass through the same classifier as network
   * failures: a missing field is an Unknown Error with the three generic tips.
   */
  lemma MissingParametersClassified(m: string)
    requires m == MissingParametersMessage
    ensures Failure(ErrorInfo("Error", m)) == ApiFailure(m, UnknownError, TipsFor(UnknownError))
  {
    NotContainsChar(m, "Failed to fetch", 'F');
    NoNetworkInMissingParameters(m);
    NoInvalidUrlInMissingParameters(m);
    NoTimeoutInMissingParameters(m);
    UnmatchedIsUnknown(ErrorInfo("Error", m));
  }

  lemma NoNetworkInMissingParameters(m: string)
    requires m == MissingParametersMessage
    ensures !Contains(m, "network")
  {
    NotContainsChar(m, "network", 'k');
  }

  lemma NoInvalidUrlInMissingParameters(m: string)
    requires m == MissingParametersMessage
    ensures !Contains(m, "Invalid URL")
  {
    NotContainsChar(m, "Invalid URL", 'I');
  }

  /** An error matching none of the classifier's tests is an Unknown Error with the generic tips. */
  lemma UnmatchedIsUnknown(e: ErrorInfo)
    requires !TimedOut(e) && !FailedToFetch(e) && !MentionsNetwork(e) && !MentionsInvalidUrl(e)
    ensures Failure(e) == ApiFailure(e.message, UnknownError, TipsFor(UnknownError))
  {
  }

  /** A malformed URL is an Invalid URL error with the two URL tips. */
  lemma InvalidUrlClassified(m: string)
    requires m == InvalidUrlMessage
    ensures Failure(ErrorInfo("Error", m)) == ApiFailure(m, InvalidUrl, TipsFor(InvalidUrl))
  {
    InvalidUrlMatchesNoEarlierTest(m);
    assert OccursAt(m, "Invalid URL", 0);
  }

  /** The invalid-URL message mentions neither a timeout nor a network failure. */
  lemma InvalidUrlMatchesNoEarlierTest(m: string)
    requires m == InvalidUrlMessage
    ensures !Contains(m, "timeout") && !Contains(m, "Failed to fetch") && !Contains(m, "network")
  {
    LacksCharacterOf(m, "timeout", 'e');
    LacksCharacterOf(m, "Failed to fetch", 'F');
    LacksCharacterOf(m, "network", 'k');
  }

  /** The invalid-URL message lacks the character `c` of `word`, so it does not include `word`. */
  lemma LacksCharacterOf(m: string, word: string, c: char)
    requires m == InvalidUrlMessage && c in word && c in "eFk"
    ensures !Contains(m, word)
  {
    NotContainsChar(m, word, c);
  }

  /** No word of the missing-parameters message holds both a 't' and an 'i', so "timeout" is not in it. */
  lemma NoTimeoutInMissingParameters(m: string)
    requires m == MissingParametersMessage
    ensures !Contains(m, "timeout")
  {
    var w1, w2, w3, w4, w5, w6 := "Missing", "required", "parameters:", "method", "and", "url";
    assert m == w1 + [' '] + (w2 + [' '] + (w3 + [' '] + (w4 + [' '] + (w5 + [' '] + w6))));
    NoTimeoutInWords(w1, w2, w3, w4, w5, w6);
  }

  /** Six space-separated words, each lacking a 't' or an 'i', cannot include "timeout". */
  lemma NoTimeoutInWords(w1: string, w2: string, w3: string, w4: string, w5: string, w6: string)
    requires 't' !in w1 && 't' !in w2 && 'i' !in w3 && 'i' !in w4 && 't' !in w5 && 't' !in w6
    ensures !Contains(w1 + [' '] + (w2 + [' '] + (w3 + [' '] + (w4 + [' '] + (w5 + [' '] + w6)))), "timeout")
  {
    var t := "timeout";
    NotContainsChar(w5, t, 't');
    NotContainsChar(w6, t, 't');
    var r4 := w5 + [' '] + w6;
    NotContainsAcross(w5, ' ', w6, t);
    NotContainsChar(w4, t, 'i');
    var r3 := w4 + [' '] + r4;
    NotContainsAcross(w4, ' ', r4, t);
    NotContainsChar(w3, t, 'i');
    var r2 := w3 + [' '] + r3;
    NotContainsAcross(w3, ' ', r3, t);
    NotContainsChar(w2, t, 't');
    var r1 := w2 + [' '] + r2;
    NotContainsAcross(w2, ' ', r2, t);
    NotContainsChar(w1, t, 't');
    NotContainsAcross(w1, ' ', r1, t);
  }
}
